=== FILE: README.md ===
# create-app-script, modelled in Dafny

create-app-script is a small scaffolding CLI for React projects. It clones a template
repository, then generates page folders and a route manifest from names typed by the user.
This project models the deterministic logic inside that CLI as pure Dafny functions. Anything
the program learns from the outside world is a parameter of the model: directory listings, the
text of `src/routes/routers.js`, prompt answers, and what `yarnpkg`, `npm`, `git` and
`validate-npm-package-name` report.

The modules follow the program's files:

- `Chop` (`chop.dfy`) is the name normaliser `chop`. It splits on `,` or the full-width `，`,
  strips every non-`[A-Za-z]` character, drops empty pieces, then lower-cases and deduplicates,
  keeping first occurrences. The fold as written (`Reduce`) is proved equal to a reference
  deduplication (`Distinct`).
- `Records` (`records.dfy`) holds the route record `{key, name, to, path, component, exact,
  children}`, the page record `{name, componentName}` and `Capital`.
- `GenerateRouter` (`generate_router.dfy`) covers `resolution` and `generateRouter`. It
  JSON-quotes the manifest text, deletes JavaScript `\s` characters, and splits the requested
  routes into duplicates and the `{list}` payload handed to the template.
- `GeneratePage` (`generate_page.dfy`) covers `generatePage`: the duplicate intersection with
  the `src/pages` listing, the `componentName` fallback, and the four (target, template) jobs
  per item.
- `Batch`, `CreateRouter`, `CreatePage` (`batch.dfy`, `create_router.dfy`, `create_page.dfy`)
  model the `create-router` and `create-page` commands.
- `ProjectDir` (`project_dir.dfy`) is `isSafeToCreateProjectIn` over a given listing.
- `Scaffold` (`scaffold.dfy`) is the check sequence the three project generators share:
  npm version, project name, directory safety, git, clone, install.
- `CreateAppScript`, `BinCreateApp`, `LibCreate` (`create_app_script.dfy`,
  `bin_create_app.dfy`, `lib_create.dfy`) model the three generators `createApp.js`,
  `bin/createApp.js` and `lib/create.js`.
- `Text`, `Seqs`, `Maybe`, `Jobs` hold the shared helpers.

A template rendering is modelled as a `Job(target, template, data)`: the file the program
would write, the Handlebars template it would use, and the data passed to it. Targets are
relative to the project root (`src/pages/<Name>/index.js`).

Three behaviours of the code shape the model:

- `generateRouter` renders `src/routes/routers.js` from the requested routes that are not
  already present, and from nothing else: the entries already in the file are not carried over.
- `generatePage` warns that duplicate pages "will be ignored", yet still plans every page,
  duplicates included.
- Route records carry `component` and no `componentName`, so `create-router` and
  `lib/create.js` never report a duplicate page.

`capital` lives in a helper module that is not part of this model. `Capital` uses the inline
definition at `bin/createApp.js:137` instead: the first character upper-cased, the rest unchanged.

## Model

| member | source | states |
|---|---|---|
| Chop.Split | lib/utils/common/chop.js:2 | there is one piece more than there are separators, and no piece contains `,` or `，` |
| Chop.SplitCharacters | lib/utils/common/chop.js:2 | a character occurs in some piece iff it occurs in the input and is not a separator |
| Chop.SplitJoin | lib/utils/common/chop.js:2 | joining the pieces with `,` gives back the input, with every `，` written as `,` |
| Chop.JoinSplit | lib/utils/common/chop.js:2 | splitting a `,`-join of separator-free pieces gives back those pieces |
| Chop.SplitNoSeparator | lib/utils/common/chop.js:2 | a text without separators is a single piece |
| Chop.SplitConcat | lib/utils/common/chop.js:2 | a separator between two texts splits them apart: the pieces of `a,b` are the pieces of `a` followed by those of `b` |
| Chop.SplitAt | lib/utils/common/chop.js:2 | splitting at any separator position concatenates the pieces on either side |
| Chop.Letters | lib/utils/common/chop.js:3 | stripping leaves only ASCII letters and never lengthens a piece |
| Chop.LettersOfLetters | lib/utils/common/chop.js:3 | stripping a letters-only piece leaves it unchanged |
| Chop.LettersOfChar | lib/utils/common/chop.js:3 | one character survives stripping iff it is an ASCII letter |
| Chop.LettersConcat | lib/utils/common/chop.js:3 | stripping is character-wise: the stripped concatenation is the concatenation of the stripped parts, so every letter is kept in order |
| Chop.LettersEmpty | lib/utils/common/chop.js:3-4 | a piece strips to the empty string iff it has no ASCII letter |
| Chop.Stripped | lib/utils/common/chop.js:3 | one stripped piece per piece, position by position (the length is kept); `Letters`, `LettersOfChar` and `LettersConcat` pin each piece |
| Chop.Kept | lib/utils/common/chop.js:4 | the truthy filter never lengthens the list; `KeptMembers`, `KeptConcat` and `KeptAllNonEmpty` pin what it keeps and in which order |
| Chop.KeptMembers | lib/utils/common/chop.js:4 | the truthy filter keeps exactly the non-empty pieces |
| Chop.KeptConcat | lib/utils/common/chop.js:4 | filtering distributes over concatenation |
| Chop.KeptAllNonEmpty | lib/utils/common/chop.js:4 | a list with no empty pieces passes the filter unchanged |
| Chop.Candidates | lib/utils/common/chop.js:2-7 | the pipeline before the fold (split, strip, filter, lower-case); `CandidatesAreWords` and `CandidatesConcat` pin it |
| Chop.CandidatesAreWords | lib/utils/common/chop.js:2-7 | every piece reaching the fold is non-empty lower-case a–z |
| Chop.CandidatesConcat | lib/utils/common/chop.js:2-7 | the candidates of `a,b` are those of `a` followed by those of `b` |
| Chop.Step | lib/utils/common/chop.js:6-9 | one `reduce` step: `indexOf` then `push` of the lower-cased piece; `StepIsDistinct` pins it against the reference deduplication |
| Chop.Reduce | lib/utils/common/chop.js:5-10 | the left fold of `Step`; `ReduceIsDistinct` proves it equal to the reference deduplication `Distinct` |
| Chop.Distinct | lib/utils/common/chop.js:5-10 | the reference deduplication has no duplicates, the same members as its input, and is no longer |
| Chop.FirstIndex | lib/utils/common/chop.js:6 | `indexOf`: the position of the first occurrence; no earlier element equals it |
| Chop.StepIsDistinct | lib/utils/common/chop.js:5-10 | one step of the `indexOf`/`push` fold extends the reference deduplication by the lower-cased element |
| Chop.ReduceIsDistinct | lib/utils/common/chop.js:5-10 | the whole fold, started from any deduplicated accumulator, equals the reference deduplication of accumulator and lower-cased rest |
| Chop.DistinctOfDistinct | lib/utils/common/chop.js:5-10 | deduplicating a list without duplicates changes nothing |
| Chop.DistinctPrefix | lib/utils/common/chop.js:5-10 | appending input never reorders what has already been kept: the old result is a prefix of the new one |
| Chop.DistinctOrder | lib/utils/common/chop.js:5-10 | the kept names appear in the order of their first occurrences in the input |
| Chop.Chop | lib/utils/common/chop.js:1-11 | `chop` equals the reference deduplication of the candidates; every name is non-empty lower-case a–z; no name repeats |
| Chop.ChopOrder | lib/utils/common/chop.js:5-10 | the names are in order of first occurrence among the candidates |
| Chop.ChopComplete | lib/utils/common/chop.js:2-10 | a name is in the output iff some piece, stripped to letters and lower-cased, is that non-empty name |
| Chop.ChopEmpty | lib/utils/common/chop.js:2-4 | the output is empty iff the input has no ASCII letter |
| Chop.ChopLength | lib/utils/common/chop.js:2-4 | there are no more names than `,`/`，`-separated pieces |
| Chop.ChopIdempotent | lib/utils/common/chop.js:1-11 | normalising the `,`-join of a normalised list gives the same list |
| Chop.ChopConcat | lib/utils/common/chop.js:1-11 | the names of `a,b` start with the names of `a`, and their members are those of `a` or `b` |
| Batch.BatchInput | lib/createRouter.js:10-17 | the batch input `name + "," + answer` keeps the positional name's tokens first; without an answer it is just the name |
| Text.LowerStr | lib/utils/common/chop.js:6-7 | `toLowerCase` keeps the length |
| Text.LowerOfLetters | lib/utils/common/chop.js:6-7 | lower-casing ASCII letters gives lower-case a–z only |
| Text.LowerOfLowerWord | lib/utils/common/chop.js:6-7 | lower-casing a lower-case word changes nothing |
| Text.ContainsMiddle | lib/utils/generateRouter.js:13 | `includes` finds a pattern placed anywhere in a text |
| Text.LastSegment | lib/utils/generatePage.js:31 | `split('/').pop()` contains no `/` |
| Text.LastSegmentSuffix | lib/utils/generatePage.js:31 | the last segment is a suffix of the path, preceded by `/` unless it is the whole path |
| Text.LastSegmentAfterSlash | lib/utils/generatePage.js:31 | the last segment of `prefix/name` is `name` when `name` has no `/` |
| Records.Capital | bin/createApp.js:137 | upper-casing the first character keeps the length |
| Records.CapitalRoundTrip | bin/createApp.js:137 | for a lower-case word the first character becomes upper case and the rest is unchanged; lower-casing restores the word, and no `/` appears |
| Records.CapitalInjective | lib/createRouter.js:23 | different names give different component names |
| Records.RouteFor | lib/createRouter.js:18-26 | the route record of one name; `RouteForWellFormed` states its fields |
| Records.PageFor | lib/createPage.js:18-21 | the page record of one name, `{name, componentName: capital(name)}`; `PageForWellFormed` states its fields |
| Records.RouteForWellFormed | lib/createRouter.js:18-26 | a name's route has key and name equal to it, `to` and `path` `/name`, `component` `pages/Name` whose last segment lower-cases to the key, `exact` true and no children |
| Records.PageForWellFormed | lib/createPage.js:18-21 | a name's page record keeps the name and has a componentName of the same length, starting upper case, that lower-cases back to the name |
| Records.RoutesFor | lib/createRouter.js:18 | one route record per token |
| Records.PagesFor | lib/createPage.js:18 | one page record per token |
| Records.RoutesForNames | lib/createRouter.js:18-26 | for unique normalised names, the records are well formed, their keys are the names in order, and no two share a component |
| Records.PagesForNames | lib/createPage.js:18-21 | for unique normalised names, the page names are the tokens in order, each componentName is the capitalised name, and no two share a componentName |
| GenerateRouter.Resolution | lib/utils/generateRouter.js:6-20 | `resolution` on a readable manifest: the partition of the routes against the normalised text; `PartitionOne`, `PartitionConcat` and `PartitionMembers` pin it |
| GenerateRouter.Partition | lib/utils/generateRouter.js:12-18 | every route lands in exactly one of `intersection` or `list`; `list` is an order-preserving subsequence with no duplicates in it |
| GenerateRouter.PartitionMembers | lib/utils/generateRouter.js:12-18 | a route is in `list` iff its key pattern is absent; a duplicate's key is in `intersection` |
| GenerateRouter.IntersectionInOrder | lib/utils/generateRouter.js:12-18 | `intersection` is a subsequence of the requested keys |
| GenerateRouter.PartitionConcat | lib/utils/generateRouter.js:12-18 | partitioning a concatenation concatenates the partitions |
| GenerateRouter.PartitionOne | lib/utils/generateRouter.js:13-17 | a single route goes to `intersection` iff `key:'<key>',` occurs in the normalised text |
| GenerateRouter.PartitionNoneDuplicate | lib/utils/generateRouter.js:12-18 | with no duplicates, `intersection` is empty and `list` is every route |
| GenerateRouter.GenerateRouter | lib/utils/generateRouter.js:6-36 | throws, with no warning and no job, iff `src/routes/routers.js` cannot be read; otherwise a warning iff duplicates exist, listing them; one job to `src/routes/routers.js` with `router.js.hbs` whose payload is exactly the non-duplicate routes in order |
| GenerateRouter.JsonQuote | lib/utils/generateRouter.js:10 | `JSON.stringify` of a string: the escaped text between double quotes; `EscapeConcat`, `EscapeFreeUnchanged`, `ControlSpaceEscape` and `QuoteInEscape` pin the escaping |
| GenerateRouter.Normalize | lib/utils/generateRouter.js:10 | the quoted text with every `\s` character deleted; `NormalizeSplit`, `NormalizeAround`, `UnescapedSpaceDeleted`, `NormalizeDrop` and `SingleQuoteKept` pin it |
| GenerateRouter.EscapeConcat | lib/utils/generateRouter.js:10 | JSON escaping works character by character |
| GenerateRouter.StripConcat | lib/utils/generateRouter.js:10 | deleting `\s` works character by character |
| GenerateRouter.EscapeFreeUnchanged | lib/utils/generateRouter.js:10 | characters JSON leaves alone are copied unchanged |
| GenerateRouter.PlainUnchanged | lib/utils/generateRouter.js:10 | text without `\s` characters survives the deletion |
| GenerateRouter.NormalizeSplit | lib/utils/generateRouter.js:10 | normalising a concatenation normalises each part in place |
| GenerateRouter.NormalizeAround | lib/utils/generateRouter.js:10 | a run of plain characters appears verbatim in the normalised text |
| GenerateRouter.UnescapedSpaceDeleted | lib/utils/generateRouter.js:10 | a literal space-like character (space, NBSP, U+2028…) disappears from the normalised text |
| GenerateRouter.NormalizeDrop | lib/utils/generateRouter.js:10 | a part whose escaped form is all `\s` vanishes |
| GenerateRouter.ControlSpaceEscape | lib/utils/generateRouter.js:10 | newline, tab, CR, VT and FF escape to a backslash sequence with no `\s` in it |
| GenerateRouter.EscapedSpaceKept | lib/utils/generateRouter.js:10 | a newline or tab is not deleted: its two-character escape stays in the normalised text |
| GenerateRouter.KeyPattern | lib/utils/generateRouter.js:13 | the literal `key:'<key>',` searched for; `KeyPatternPlain` and `PatternNeedsQuote` state its properties |
| GenerateRouter.IsDuplicate | lib/utils/generateRouter.js:13 | a route is a duplicate when its key pattern occurs in the normalised text; `LiteralKeyIsDuplicate`, `SpacedKeyIsDuplicate`, `EscapedSpaceKept` and `PartitionOne` pin it |
| GenerateRouter.KeyPatternPlain | lib/utils/generateRouter.js:13 | the pattern for a letters-only key has no character that escaping or deletion changes |
| GenerateRouter.LiteralKeyIsDuplicate | lib/utils/generateRouter.js:13 | a manifest containing `key:'<key>',` verbatim marks that route as a duplicate |
| GenerateRouter.SpacedKeyIsDuplicate | lib/utils/generateRouter.js:10-13 | `key: '<key>',` with a literal space still matches, because the space is deleted |
| GenerateRouter.QuoteInEscape | lib/utils/generateRouter.js:10 | escaping keeps a single quote iff there was one |
| GenerateRouter.SingleQuoteKept | lib/utils/generateRouter.js:10 | the normalised text has a `'` iff the manifest does |
| GenerateRouter.PatternNeedsQuote | lib/utils/generateRouter.js:13 | a text containing a key pattern contains `'` |
| GenerateRouter.NoSingleQuoteNoDuplicates | lib/utils/generateRouter.js:10-27 | a manifest without `'` (double-quoted keys, say) never yields duplicates, so every route reaches the payload |
| GeneratePage.PageItems | lib/utils/generatePage.js:17 | one item per page record |
| GeneratePage.RouteItems | lib/utils/generatePage.js:17 | one item per route record |
| GeneratePage.ComponentName | lib/utils/generatePage.js:31 | the effective name is a truthy `componentName`, else exactly the last `/`-segment of `component`; none, a crash, only when both are missing |
| GeneratePage.Intersection | lib/utils/generatePage.js:19-24 | every reported duplicate is in the listing; every item whose `componentName` is listed is reported |
| GeneratePage.IntersectionSources | lib/utils/generatePage.js:19-24 | every reported duplicate is some item's `componentName` |
| GeneratePage.IntersectionWithoutComponentNames | lib/utils/generatePage.js:20 | items without `componentName` are never reported |
| GeneratePage.RoutesNeverDuplicates | lib/utils/generatePage.js:18-27 | route records are never reported as duplicate pages, and no warning is issued for them, whether or not `src/pages` can be read |
| GeneratePage.CreatePaths | lib/utils/generatePage.js:7-15 | `createPaths`: one job under `src/pages/<componentName>/` with the given file, template and data; `ItemJobsLayout` states the four instances |
| GeneratePage.ItemJobs | lib/utils/generatePage.js:29-44 | the four `compile` calls of one item, in order; `ItemJobsLayout` states them literally |
| GeneratePage.PlanItems | lib/utils/generatePage.js:28-45 | the `forEach` over the items, stopping at the first item without an effective name; `PlanCrashes`, `PlanShape`, `PlanIndexFiles` and `PlanUnderPages` pin it |
| GeneratePage.ItemJobsLayout | lib/utils/generatePage.js:33-36 | four jobs: index.js/page.js.hbs, io.js/io.js.hbs, store.js/store.js.hbs, style.less/page.less.hbs, each under `src/pages/<componentName>/` with the same data `{name, componentName}`; the four targets are distinct |
| GeneratePage.PlanCrashes | lib/utils/generatePage.js:28-45 | generation throws iff some item has no effective component name |
| GeneratePage.PlanShape | lib/utils/generatePage.js:28-45 | without a crash there are exactly four jobs per item, in item order, none skipped |
| GeneratePage.PlanIndexFiles | lib/utils/generatePage.js:33 | each item's first job is its `index.js` from `page.js.hbs` |
| GeneratePage.PlanUnderPages | lib/utils/generatePage.js:7-15 | every planned target lies under `src/pages/` |
| GeneratePage.GeneratePage | lib/utils/generatePage.js:17-46 | an unreadable `src/pages` throws before any warning or job; otherwise duplicates are the intersection with its listing; a warning iff that is non-empty; a crash iff the folder is unreadable or an item has no effective name |
| GeneratePage.GeneratesEveryItem | lib/utils/generatePage.js:28-45 | with a readable `src/pages`, every item is generated, duplicates included: four jobs each, in order |
| GeneratePage.RouteItemsComponentName | lib/utils/generatePage.js:18-31 | a route's effective component name is the last segment of its `component`, so page generation for routes throws iff `src/pages` cannot be read |
| CreateRouter.Compiled | lib/createRouter.js:27-28 | the page jobs followed by the router job when the router ran; `CreateRouter.CreateRouter` and `LibCreate.SameAsCreateRouter` state its shape |
| CreateRouter.CreateRouter | lib/createRouter.js:8-29 | the routes are one well-formed record per token of the batch input, with unique keys and `component` `pages/Name`; pages are generated with no duplicates reported and four jobs each at `src/pages/Name/…`; then the router is generated from the same records, last; an unreadable `src/pages` stops the command with no job, and an unreadable manifest stops it after the page jobs |
| CreateRouter.RouteComponentNames | lib/createRouter.js:23 | the page a route generates is named `capital(token)` |
| CreateRouter.PositionalNameFirst | lib/createRouter.js:10-18 | when the positional name has a letter, its routes come first, ahead of the batch list |
| CreatePage.CreatePage | lib/createPage.js:8-23 | one page per token of the batch input, in order, with unique names and componentNames, each componentName the capitalised name; the command throws, with no job, iff `src/pages` cannot be read; otherwise four jobs each under `src/pages/<componentName>/` with data `{name, componentName}`; no router |
| CreatePage.PageComponentNames | lib/createPage.js:18-21 | a page record's effective component name is its `componentName` |
| CreatePage.PageItemsDuplicates | lib/utils/generatePage.js:19-27 | a page is reported iff its componentName is listed; a warning iff some page is listed |
| CreatePage.PageDuplicates | lib/createPage.js:18-22 | `create-page` reports exactly the pages whose folder already exists, and warns iff there is one |
| CreatePage.SamePlan | lib/utils/generatePage.js:28-45 | the jobs depend only on each item's name and effective component name |
| CreatePage.SamePagesAsCreateRouter | lib/createRouter.js:27 | `create-page` and `create-router` with the same input write the same page files, none when `src/pages` cannot be read |
| ProjectDir.IsErrorLog | bin/createApp.js:273-280 | a file name starting with `npm-debug.log`, `yarn-error.log` or `yarn-debug.log`; `ErrorLogs` and `HarmlessFilesIgnored` use it |
| ProjectDir.IsConflict | bin/createApp.js:255-286 | a file that is not whitelisted, not `.iml` and not an error log; `Conflicts`, `ConflictsConcat` and `HarmlessFilesIgnored` pin the filter built from it |
| ProjectDir.Conflicts | bin/createApp.js:282-286 | conflicts are exactly the listed files that are not whitelisted, not `.iml` and not error logs, in listing order |
| ProjectDir.ErrorLogs | bin/createApp.js:313-317 | the removed files are exactly the listed files starting with an error-log prefix, in listing order |
| ProjectDir.IsSafeToCreateProjectIn | bin/createApp.js:254-319 | safe iff no conflict; when unsafe nothing is removed; when safe exactly the error logs are removed |
| ProjectDir.ConflictsConcat | bin/createApp.js:282-286 | the conflict filter distributes over concatenated listings |
| ProjectDir.SafetyConcat | bin/createApp.js:288-310 | a combined listing is safe iff both parts are |
| ProjectDir.HarmlessFilesIgnored | bin/createApp.js:282-286 | adding whitelisted, `.iml` or error-log files changes neither the verdict nor the conflicts |
| ProjectDir.NoConflicts | lib/create.js:207-211 | a listing without conflicting files has an empty conflict list |
| Scaffold.InstallCommand | bin/createApp.js:73-89 | `yarn install` with yarn, `npm install` without; `Preflight` and each generator state the yarn choice |
| Scaffold.OldNpmDetected | bin/createApp.js:77-88 | the npm check runs only without yarn and stops on a reported version below 5; `Preflight` ties the old-npm exit to it |
| Scaffold.Preflight | bin/createApp.js:73-102 | the run continues iff npm is not too old, the name is valid, the directory is safe and git exists; the command is `yarn install` iff yarn answers; each exit names the first failing check: an unsafe-directory exit iff the earlier checks pass and the directory is unsafe, a no-git exit iff the directory is safe and git is missing; once the directory is found safe exactly its error logs are removed, and every other exit removes nothing |
| Scaffold.Finish | lib/create.js:107-130 | a failed clone exits with no jobs; after a clone the jobs are compiled, and the install command runs iff generation did not crash |
| CreateAppScript.FirstToken | createApp.js:21 | `split(' ')[0]` is a space-free prefix of the argument that ends at a space or at the end |
| CreateAppScript.FirstTokenUnique | createApp.js:21 | any space-free prefix ending at a space or at the end is the first token |
| CreateAppScript.FirstWord | createApp.js:21 | `word rest…` yields `word` |
| CreateAppScript.ProjectName | createApp.js:20-22 | no project name iff the argument is missing or empty; otherwise its first token |
| CreateAppScript.CreateApp | createApp.js:31-98 | a missing name exits first; the install runs iff the name is given, every check passes and the clone succeeds; a clone failure is reported iff only the clone failed; the install uses yarn iff yarn is available; no pages or routes are generated; logs are removed only from a safe directory |
| BinCreateApp.InlineRoutes | bin/createApp.js:118-141 | the inline normaliser yields the same names as `chop`, and one well-formed route with `component` `pages/Name` per name |
| BinCreateApp.PageJob | bin/createApp.js:183-188 | the single page of one route: `src/pages/<last segment>/index.js` from `page.js.hbs` with `{name}`; `PageJobs` and `PageTargets` state it per route |
| BinCreateApp.PageJobs | bin/createApp.js:182-189 | one job per route, in order: `src/pages/<last segment of component>/index.js` from `page.js.hbs` with that segment as the name |
| BinCreateApp.RunJobs | bin/createApp.js:176-190 | with routes, the router file comes first and then one index page per route; without routes, nothing |
| BinCreateApp.PageTargets | bin/createApp.js:182-189 | each route's page is `src/pages/<Name>/index.js` from `page.js.hbs` with data `{name: Name}` |
| BinCreateApp.PageDirectories | bin/createApp.js:183 | the page folder is the last segment of `component`, i.e. `capital(key)` |
| BinCreateApp.SameIndexFile | bin/createApp.js:182-189 | the index file written here has the same target and template as the first file `generatePage` would write for that route |
| BinCreateApp.CreateApp | bin/createApp.js:45-192 | a missing name exits; the install runs iff the name is given, every check passes and the clone succeeds; a clone failure is reported iff only the clone failed; the install uses yarn iff yarn is available; routes answered produce the router job plus one page per name; no answer, no jobs |
| BinCreateApp.EmptyAnswerStillCompiles | bin/createApp.js:176 | an answer with no letters still compiles an empty router manifest, because an empty array is truthy |
| LibCreate.AnswerRoutes | lib/create.js:80-88 | one well-formed route per `chop` token of the answer |
| LibCreate.Generate | lib/create.js:125-128 | generation throws iff `src/pages` or `src/routes/routers.js` cannot be read: with no job in the first case, after the page jobs in the second; otherwise the page jobs come first and the router job last |
| LibCreate.Run | lib/create.js:100-130 | after a clone, routes produce four page jobs each under `src/pages/` then the router; without routes no jobs; the install runs last, iff the clone succeeded and, when routes were requested, both generators could read their input; a generation failure is reported iff one could not |
| LibCreate.Create | lib/create.js:26-130 | the install runs iff every check passes, the clone succeeds and, with a router answer, `src/pages` and `src/routes/routers.js` can be read; a generation failure is reported iff only those reads failed; a clone failure is reported iff only the clone failed; the install uses yarn iff yarn is available; routes answered produce 4n+1 jobs, the last the router file |
| LibCreate.SameAsCreateRouter | lib/create.js:125-128 | once the checks pass and the clone succeeds, generating with a router answer writes exactly what `create-router <answer>` writes, on every path: all jobs, only the page jobs when the manifest cannot be read, none when `src/pages` cannot be read |

## Left out

- Filesystem and subprocess effects are not modelled. This covers `fs.readdirSync`,
  `fs.readFileSync`, `fs.ensureDirSync`, `shell.cd`, `cp` and `rm`, `git clone`, `execSync` and
  the final `shell.exec(command)`. Their answers are inputs (`Probe`, `dirs`, `manifest`), and
  their effects are outputs (`Outcome.removed`, `jobs`, `install`). The listing of `src/pages`
  (`dirs`) and the text of `src/routes/routers.js` (`manifest`) are `Option`s: `None` stands for
  a read that throws, which the generators model as an error path.
- Failures of `compile` itself (an unwritable target, a missing template) are not modelled. So the
  generators of `createApp.js` and `bin/createApp.js`, which read no project file, never report a
  generation failure.
- The random working directory name built with `Math.random` is not modelled.
- Interactive prompts (`inquirer`) and argument parsing (`commander`, `minimist`) are not modelled.
  Answers are `Option<string>` inputs. In `bin/createApp.js` the project name is taken as given.
- The `--template` choice prompt only changes which repository is cloned, so it is not modelled.
- Handlebars rendering and the file writes in `compile` are not modelled. The model stops at the
  job: target, template and data.
- Absolute paths from `path.resolve` are not modelled. Targets are relative to the project root,
  and `path.basename` of the project directory is not computed.
- `semver.gte` and `validate-npm-package-name` are library calls. Their answers are the booleans
  `npmAtLeastFive` and `nameValid`.
- The Node version check in `bin/index.js` is not modelled.
- Log, warning and error message text is not modelled. A warning is modelled as the list it
  reports.
- Records.Capital: models only the inline `bin/createApp.js:137` definition on ASCII letters. The
  regex `.` does not match line terminators; this cannot matter, because names reaching it are
  lower-case a–z.
- `lib/create.js:112` (`log(📦)`) is not valid JavaScript. The model treats `run` as if that line
  were absent.
- The second `readdirSync` in `isSafeToCreateProjectIn` is assumed to see the same listing as the
  first.
- `lib/create.js` calls `run` without awaiting it, so a rejection there is unhandled. The model
  reports it as a generation failure with no install, and does not follow how the process then
  exits.
- GeneratePage.GeneratePage: a crash means the first item without an effective name throws a
  TypeError. The jobs compiled before it are kept in `jobs`, but the model does not follow how the
  process then exits.
- GeneratePage.Intersection: the ensures do not state the order of the reported names. They follow
  item order by construction.

=== FILE: batch.dfy ===
/**
 * The `--batch` input shared by the router and page commands: the positional name, followed
 * by the prompted answer after a ',' when a batch was asked for.
 */
module Batch {
  import opened Maybe
  import opened Chop

  /**
   * The string handed to `chop`. The positional name comes first, so its names keep their
   * places and win the deduplication against the answer; together the names are exactly
   * those of the name and of the answer.
   */
  function BatchInput(name: string, answer: Option<string>): (input: string)
    ensures |Chop.Chop(name)| <= |Chop.Chop(input)|
    ensures Chop.Chop(input)[..|Chop.Chop(name)|] == Chop.Chop(name)
    ensures answer.None? ==> Chop.Chop(input) == Chop.Chop(name)
    ensures forall n :: n in Chop.Chop(input) <==> n in Chop.Chop(name) || (answer.Some? && n in Chop.Chop(answer.value))
  {
    match answer
    case None => name
    case Some(more) =>
      ChopConcat(name, more);
      name + "," + more
  }
}

=== FILE: bin_create_app.dfy ===
/**
 * The project generator `bin/createApp.js`: the shared checks, an optional route list read
 * with the inline copy of `chop`, the template clone, then the router manifest with every
 * requested route and one `index.js` page per route, and finally the install.
 */
module BinCreateApp {
  import opened Maybe
  import opened Text
  import Chop
  import opened Records
  import opened Jobs
  import opened ProjectDir
  import opened Scaffold
  import GeneratePage

  /** The routes built from the `--router` answer: the inline normalizer, then one record per name. */
  function InlineRoutes(answer: string): (routes: seq<Route>)
    ensures Keys(routes) == Chop.Chop(answer)
    ensures forall r <- routes :: WellFormedRoute(r)
    ensures forall r <- routes :: r.component == "pages/" + Capital(r.key)
  {
    var names := Chop.Chop(answer);
    RoutesForNames(names);
    assert forall r <- RoutesFor(names) :: r == RouteFor(r.key) by {
      forall r <- RoutesFor(names) ensures r == RouteFor(r.key) {
        var i :| 0 <= i < |names| && RoutesFor(names)[i] == r;
      }
    }
    RoutesFor(names)
  }

  /** `route.component.split('/').pop()`: the page directory of a route. */
  function PageDirectory(route: Route): string
  {
    LastSegment(route.component)
  }

  /** The page job of one route: `src/pages/<name>/index.js` from `page.js.hbs` with `{ name }`. */
  function PageJob(route: Route): Job
  {
    Job(GeneratePage.PagesDir + PageDirectory(route) + "/index.js", "page.js.hbs", PageName(PageDirectory(route)))
  }

  /** One page job per route, in route order. */
  function PageJobs(routes: seq<Route>): (jobs: seq<Job>)
    ensures |jobs| == |routes|
    ensures forall i :: 0 <= i < |routes| ==>
      jobs[i].target == GeneratePage.PagesDir + LastSegment(routes[i].component) + "/index.js" &&
      jobs[i].template == "page.js.hbs" && jobs[i].data == PageName(LastSegment(routes[i].component))
  {
    seq(|routes|, i requires 0 <= i < |routes| => PageJob(routes[i]))
  }

  /**
   * The jobs of `run`: nothing without `--router`; otherwise the manifest holding the whole
   * list (an empty list included), then one page per route in order.
   */
  function RunJobs(routes: Option<seq<Route>>): (jobs: seq<Job>)
    ensures routes.None? ==> jobs == []
    ensures routes.Some? ==> |jobs| == |routes.value| + 1 && jobs[0] == RouterJob(routes.value)
    ensures routes.Some? ==> forall i :: 0 <= i < |routes.value| ==> jobs[i + 1] == PageJob(routes.value[i])
  {
    match routes
    case None => []
    case Some(rs) => [RouterJob(rs)] + PageJobs(rs)
  }

  /** One run of `bin/createApp.js`; `routerAnswer` is the prompted list when `--router` is given. */
  function CreateApp(name: Option<string>, routerAnswer: Option<string>, p: Probe): (o: Outcome)
    ensures o.abort == Some(MissingName) <==> name.None?
    ensures o.install.Some? <==> o.abort.None?
    ensures o.install.Some? <==> name.Some? && ChecksPass(p) && p.cloneSucceeded
    ensures o.abort == Some(CloneFailed) <==> name.Some? && ChecksPass(p) && !p.cloneSucceeded
    ensures o.install.Some? ==> (o.install.value == "yarn install" <==> p.yarnAvailable)
    ensures o.install.Some? ==> forall f <- p.listing :: !IsConflict(f) && (f in o.removed <==> IsErrorLog(f))
    ensures o.abort != Some(GenerationFailed)
    ensures o.install.Some? && routerAnswer.None? ==> o.jobs == []
    ensures o.install.Some? && routerAnswer.Some? ==>
      |o.jobs| == |Chop.Chop(routerAnswer.value)| + 1 &&
      o.jobs[0] == RouterJob(InlineRoutes(routerAnswer.value))
  {
    if name.None? then Stopped(MissingName)
    else
      var checked := Preflight(p);
      if checked.Stop? then checked.outcome
      else
        var routes := if routerAnswer.Some? then Some(InlineRoutes(routerAnswer.value)) else None;
        Finish(checked, p.cloneSucceeded, RunJobs(routes), false)
  }

  /**
   * Each requested name gets the page `src/pages/<Name>/index.js`, `Name` being the name
   * with its first letter upper-cased, rendered with `{ name: Name }`.
   */
  lemma PageTargets(answer: string)
    ensures forall i :: 0 <= i < |Chop.Chop(answer)| ==>
      RunJobs(Some(InlineRoutes(answer)))[i + 1] ==
        Job(GeneratePage.PagesDir + Capital(Chop.Chop(answer)[i]) + "/index.js", "page.js.hbs",
            PageName(Capital(Chop.Chop(answer)[i])))
  {
    var names := Chop.Chop(answer);
    var routes := InlineRoutes(answer);
    var jobs := RunJobs(Some(routes));
    PageDirectories(routes);
    assert Keys(routes) == names;
    forall i | 0 <= i < |names|
      ensures jobs[i + 1] == Job(GeneratePage.PagesDir + Capital(names[i]) + "/index.js", "page.js.hbs",
                                 PageName(Capital(names[i])))
    {
      assert routes[i].key == names[i];
      assert jobs[i + 1] == PageJob(routes[i]);
    }
  }

  /** The page directory of a route built from a name is the capitalised name. */
  lemma PageDirectories(routes: seq<Route>)
    requires forall r <- routes :: WellFormedRoute(r)
    requires forall r <- routes :: r.component == "pages/" + Capital(r.key)
    ensures forall i :: 0 <= i < |routes| ==> PageDirectory(routes[i]) == Capital(routes[i].key)
  {
    forall i | 0 <= i < |routes| ensures PageDirectory(routes[i]) == Capital(routes[i].key) {
      assert routes[i] in routes;
      CapitalRoundTrip(routes[i].key);
      LastSegmentAfterSlash("pages/", Capital(routes[i].key));
    }
  }

  /**
   * For any routes, the page of each route is the same file, from the same template, as the
   * first of the four files `generatePage` plans for that route when `src/pages` is readable.
   */
  lemma SameIndexFile(routes: seq<Route>, dirs: seq<string>)
    ensures |GeneratePage.GeneratePage(GeneratePage.RouteItems(routes), Some(dirs)).jobs| == 4 * |routes|
    ensures forall i :: 0 <= i < |routes| ==>
      RunJobs(Some(routes))[i + 1].target ==
        GeneratePage.GeneratePage(GeneratePage.RouteItems(routes), Some(dirs)).jobs[4 * i].target &&
      RunJobs(Some(routes))[i + 1].template ==
        GeneratePage.GeneratePage(GeneratePage.RouteItems(routes), Some(dirs)).jobs[4 * i].template
  {
    var items := GeneratePage.RouteItems(routes);
    GeneratePage.RouteItemsComponentName(routes, Some(dirs));
    GeneratePage.PlanIndexFiles(items);
    forall i | 0 <= i < |routes|
      ensures GeneratePage.PagesDir + PageDirectory(routes[i]) + "/" + "index.js" ==
              GeneratePage.PagesDir + PageDirectory(routes[i]) + "/index.js"
    {
      var prefix := GeneratePage.PagesDir + PageDirectory(routes[i]);
      assert prefix + "/" + "index.js" == prefix + "/index.js" by {
        assert "/" + "index.js" == "/index.js";
        assert prefix + "/" + "index.js" == prefix + ("/" + "index.js");
      }
    }
  }

  /** An answer without letters still rewrites the manifest, with an empty list, and adds no page. */
  lemma EmptyAnswerStillCompiles(name: string, answer: string, p: Probe)
    requires forall i :: 0 <= i < |answer| ==> !IsLetter(answer[i])
    requires CreateApp(Some(name), Some(answer), p).install.Some?
    ensures CreateApp(Some(name), Some(answer), p).jobs == [RouterJob([])]
  {
    Chop.ChopEmpty(answer);
  }
}

=== FILE: chop.dfy ===
/**
 * The name normalizer `chop`: a raw, comma separated answer becomes an ordered list of
 * distinct lower-case alphabetic names.
 *
 *   data.split(/,|，/)                      -- Split
 *       .map(v => v.replace(/[^A-Za-z]/g, '')) -- Stripped
 *       .filter(_ => _)                       -- Kept
 *       .reduce(first-seen lower-case dedup)  -- Reduce / Step
 */
module Chop {
  import opened Text
  import opened Seqs

  /** The full-width comma U+FF0C, accepted as a separator next to ','. */
  const FullWidthComma: char := '\U{FF0C}'

  predicate IsSeparator(c: char) { c == ',' || c == FullWidthComma }

  predicate HasNoSeparator(s: string)
  {
    forall i :: 0 <= i < |s| ==> !IsSeparator(s[i])
  }

  function CountSeparators(s: string): nat
  {
    if s == [] then 0 else (if IsSeparator(s[0]) then 1 else 0) + CountSeparators(s[1..])
  }

  /** `split(/,|，/)`: the pieces between separators, empty pieces included. */
  function Split(s: string): (pieces: seq<string>)
    ensures |pieces| == CountSeparators(s) + 1
    ensures forall p <- pieces :: HasNoSeparator(p)
  {
    if s == [] then [[]]
    else
      var rest := Split(s[1..]);
      if IsSeparator(s[0]) then [[]] + rest
      else
        assert rest[0] in rest;
        assert forall p <- rest[1..] :: p in rest;
        [[s[0]] + rest[0]] + rest[1..]
  }

  /** `s` with each full-width comma written as ','. */
  function Unify(s: string): (r: string)
    ensures |r| == |s|
  {
    seq(|s|, i requires 0 <= i < |s| => if IsSeparator(s[i]) then ',' else s[i])
  }

  /** Each piece with every character outside `[A-Za-z]` removed. */
  function Letters(s: string): (r: string)
    ensures IsLetters(r)
    ensures |r| <= |s|
  {
    if s == [] then [] else (if IsLetter(s[0]) then [s[0]] else []) + Letters(s[1..])
  }

  /** `.map(v => v.replace(/[^A-Za-z]/g, ''))` */
  function Stripped(pieces: seq<string>): (r: seq<string>)
    ensures |r| == |pieces|
  {
    seq(|pieces|, i requires 0 <= i < |pieces| => Letters(pieces[i]))
  }

  /** `.filter(_ => _)`: the empty string is the only falsy string. */
  function Kept(xs: seq<string>): (r: seq<string>)
    ensures |r| <= |xs|
  {
    if xs == [] then [] else (if xs[0] != [] then [xs[0]] else []) + Kept(xs[1..])
  }

  /** One step of the `reduce`: append the lower-cased piece unless `indexOf` finds it. */
  function Step(acc: seq<string>, cur: string): seq<string>
  {
    var lower := LowerStr(cur);
    if lower in acc then acc else acc + [lower]
  }

  /** `.reduce(Step, acc)` over `xs`, left to right. */
  function Reduce(acc: seq<string>, xs: seq<string>): seq<string>
    decreases |xs|
  {
    if xs == [] then acc else Reduce(Step(acc, xs[0]), xs[1..])
  }

  /** Each string lower-cased. */
  function Lowered(xs: seq<string>): (r: seq<string>)
    ensures |r| == |xs|
  {
    seq(|xs|, i requires 0 <= i < |xs| => LowerStr(xs[i]))
  }

  /** The candidate names of `data`: every non-empty letters-only piece, lower-cased, in order. */
  function Candidates(data: string): seq<string>
  {
    Lowered(Kept(Stripped(Split(data))))
  }

  /**
   * Reference deduplication: `t` with every element that already occurred earlier dropped.
   * Defined from the right end, independently of the left fold the source uses.
   */
  function Distinct(t: seq<string>): (r: seq<string>)
    ensures NoDuplicates(r)
    ensures forall x :: x in r <==> x in t
    ensures |r| <= |t|
  {
    if t == [] then []
    else
      var init := Distinct(t[..|t| - 1]);
      var last := t[|t| - 1];
      assert forall x :: x in t <==> x in t[..|t| - 1] || x == last by {
        assert t == t[..|t| - 1] + [last];
      }
      if last in t[..|t| - 1] then init else init + [last]
  }

  /** Index of the first occurrence of `x` in `t`. */
  function FirstIndex(t: seq<string>, x: string): (k: nat)
    requires x in t
    ensures k < |t| && t[k] == x && x !in t[..k]
  {
    if t[0] == x then 0
    else
      var k := FirstIndex(t[1..], x);
      assert t[..k + 1] == [t[0]] + t[1..][..k];
      k + 1
  }

  /** `r` lists its elements in the order of their first occurrence in `t`. */
  predicate InFirstOccurrenceOrder(r: seq<string>, t: seq<string>)
  {
    && (forall x <- r :: x in t)
    && forall i, j | 0 <= i < j < |r| :: FirstIndex(t, r[i]) < FirstIndex(t, r[j])
  }

  /** `chop(data)`. */
  function Chop(data: string): (names: seq<string>)
    ensures names == Distinct(Candidates(data))
    ensures forall n <- names :: n != [] && IsLowerWord(n)
    ensures NoDuplicates(names)
  {
    var kept := Kept(Stripped(Split(data)));
    ReduceIsDistinct([], kept);
    assert [] + Lowered(kept) == Lowered(kept);
    CandidatesAreWords(data);
    Reduce([], kept)
  }

  // ---------------------------------------------------------------------------
  // Lemmas on the pieces

  /** Every character of every piece is a non-separator character of the input, and back. */
  lemma {:induction false} SplitCharacters(s: string)
    ensures forall c :: (exists p <- Split(s) :: c in p) <==> c in s && !IsSeparator(c)
  {
    if s == [] {
      assert Split(s) == [[]];
    } else {
      SplitCharacters(s[1..]);
      var rest := Split(s[1..]);
      assert s == [s[0]] + s[1..];
      if IsSeparator(s[0]) {
        assert Split(s) == [[]] + rest;
        forall c ensures (exists p <- Split(s) :: c in p) <==> c in s && !IsSeparator(c) {
          if exists p <- Split(s) :: c in p {
            var p :| p in Split(s) && c in p;
            assert p in rest;
          }
        }
      } else {
        var pieces := Split(s);
        assert pieces == [[s[0]] + rest[0]] + rest[1..];
        forall c ensures (exists p <- pieces :: c in p) <==> c in s && !IsSeparator(c) {
          if c == s[0] {
            assert c in pieces[0];
          } else {
            if exists p <- rest :: c in p {
              var p :| p in rest && c in p;
              if p == rest[0] {
                assert c in pieces[0];
              } else {
                assert p in rest[1..];
                assert p in pieces;
              }
            }
            if exists p <- pieces :: c in p {
              var p :| p in pieces && c in p;
              if p == pieces[0] {
                assert c in rest[0];
                assert rest[0] in rest;
              } else {
                assert p in rest;
              }
            }
          }
        }
      }
    }
  }

  /** Writing the pieces back with ',' between them gives the input, every separator a ','. */
  lemma {:induction false} SplitJoin(s: string)
    ensures Join(Split(s), ",") == Unify(s)
  {
    if s == [] {
    } else {
      SplitJoin(s[1..]);
      var rest := Split(s[1..]);
      assert Unify(s) == [Unify(s)[0]] + Unify(s[1..]);
      if IsSeparator(s[0]) {
        assert Split(s) == [[]] + rest;
        assert ([[]] + rest)[1..] == rest;
      } else {
        JoinHeadChar(s[0], rest);
      }
    }
  }

  /** Joining after prefixing the first piece with `c` is prefixing the join with `c`. */
  lemma JoinHeadChar(c: char, xs: seq<string>)
    requires xs != []
    ensures Join([[c] + xs[0]] + xs[1..], ",") == [c] + Join(xs, ",")
  {
    var r := xs[1..];
    if r == [] {
      assert [[c] + xs[0]] + r == [[c] + xs[0]];
    } else {
      JoinCons([c] + xs[0], r);
      assert [xs[0]] + r == xs;
      JoinCons(xs[0], r);
      var j := Join(r, ",");
      assert ([c] + xs[0]) + "," + j == [c] + (xs[0] + "," + j);
    }
  }

  lemma JoinCons(x: string, r: seq<string>)
    requires r != []
    ensures Join([x] + r, ",") == x + "," + Join(r, ",")
  {
    assert ([x] + r)[0] == x && ([x] + r)[1..] == r;
  }

  /** A piece without separators splits into itself. */
  lemma {:induction false} SplitNoSeparator(a: string)
    requires HasNoSeparator(a)
    ensures Split(a) == [a]
  {
    if a != [] {
      SplitNoSeparator(a[1..]);
      assert [a[0]] + a[1..] == a;
    }
  }

  /** A separator between two texts splits them apart. */
  lemma SplitConcat(a: string, sep: char, b: string)
    requires IsSeparator(sep)
    ensures Split(a + [sep] + b) == Split(a) + Split(b)
  {
    var s := a + [sep] + b;
    assert s[..|a|] == a && s[|a| + 1..] == b;
    SplitAt(s, |a|);
  }

  /** Splitting at a separator: the pieces before it, then the pieces after it. */
  lemma {:induction false} SplitAt(s: string, k: nat)
    requires k < |s| && IsSeparator(s[k])
    ensures Split(s) == Split(s[..k]) + Split(s[k + 1..])
  {
    if k == 0 {
      assert s[..0] == [];
      assert s[1..] == s[k + 1..];
    } else {
      var t, u := s[1..], s[..k];
      SplitAt(t, k - 1);
      assert t[..k - 1] == u[1..];
      assert t[k..] == s[k + 1..];
      SplitStep(s, u, Split(u[1..]), Split(s[k + 1..]));
    }
  }

  /** The induction step of `SplitAt`: both `s` and its prefix `u` start with the same character. */
  lemma SplitStep(s: string, u: string, ra: seq<string>, rb: seq<string>)
    requires s != [] && u != [] && u[0] == s[0]
    requires Split(u[1..]) == ra && Split(s[1..]) == ra + rb
    ensures Split(s) == Split(u) + rb
  {
    SplitCons(s);
    SplitCons(u);
    PrependConcat(s[0], ra, rb);
  }

  /** How `Split` treats the first character of a non-empty text. */
  function Prepend(c: char, rest: seq<string>): seq<string>
    requires rest != []
  {
    if IsSeparator(c) then [[]] + rest else [[c] + rest[0]] + rest[1..]
  }

  lemma SplitCons(s: string)
    requires s != []
    ensures Split(s) == Prepend(s[0], Split(s[1..]))
  {
  }

  /** Treating a first character commutes with appending more pieces. */
  lemma PrependConcat(c: char, ra: seq<string>, rb: seq<string>)
    requires ra != []
    ensures Prepend(c, ra + rb) == Prepend(c, ra) + rb
  {
    assert (ra + rb)[0] == ra[0];
    assert (ra + rb)[1..] == ra[1..] + rb;
  }

  /** Splitting a ','-join of separator-free pieces gives back the pieces. */
  lemma {:induction false} JoinSplit(xs: seq<string>)
    requires xs != []
    requires forall x <- xs :: HasNoSeparator(x)
    ensures Split(Join(xs, ",")) == xs
  {
    if |xs| == 1 {
      SplitNoSeparator(xs[0]);
    } else {
      JoinSplit(xs[1..]);
      SplitNoSeparator(xs[0]);
      SplitConcat(xs[0], ',', Join(xs[1..], ","));
      assert xs[0] + "," + Join(xs[1..], ",") == xs[0] + [','] + Join(xs[1..], ",");
      assert [xs[0]] + xs[1..] == xs;
    }
  }

  // ---------------------------------------------------------------------------
  // Lemmas on stripping and filtering

  /** Stripping removes nothing from a word of letters. */
  lemma {:induction false} LettersOfLetters(s: string)
    requires IsLetters(s)
    ensures Letters(s) == s
  {
    if s != [] {
      LettersOfLetters(s[1..]);
      assert [s[0]] + s[1..] == s;
    }
  }

  /** A single character survives stripping exactly when it is an ASCII letter. */
  lemma LettersOfChar(c: char)
    ensures Letters([c]) == if IsLetter(c) then [c] else []
  {
    assert [c][1..] == [];
  }

  /** Stripping works character by character: it distributes over concatenation. */
  lemma {:induction false} LettersConcat(a: string, b: string)
    ensures Letters(a + b) == Letters(a) + Letters(b)
  {
    if a != [] {
      assert (a + b)[0] == a[0];
      assert (a + b)[1..] == a[1..] + b;
      LettersConcat(a[1..], b);
    }
    else {
      assert a + b == b;
    }
  }

  /** Stripping leaves nothing exactly when the piece has no letter. */
  lemma {:induction false} LettersEmpty(s: string)
    ensures Letters(s) == [] <==> forall i :: 0 <= i < |s| ==> !IsLetter(s[i])
  {
    if s != [] {
      LettersEmpty(s[1..]);
      assert forall i :: 1 <= i < |s| ==> s[i] == s[1..][i - 1];
    }
  }

  lemma {:induction false} KeptMembers(xs: seq<string>)
    ensures forall x :: x in Kept(xs) <==> x in xs && x != []
  {
    if xs != [] {
      KeptMembers(xs[1..]);
      assert xs == [xs[0]] + xs[1..];
    }
  }

  lemma KeptConcat(a: seq<string>, b: seq<string>)
    ensures Kept(a + b) == Kept(a) + Kept(b)
  {
    var s := a + b;
    assert s[..|a|] == a && s[|a|..] == b;
    KeptAt(s, |a|);
  }

  /** The filter of a list is the filter of its first `k` elements followed by the filter of the rest. */
  lemma {:induction false} KeptAt(s: seq<string>, k: nat)
    requires k <= |s|
    ensures Kept(s) == Kept(s[..k]) + Kept(s[k..])
  {
    if k == 0 {
      assert s[..0] == [] && s[0..] == s;
    } else {
      var t := s[1..];
      var h: seq<string> := if s[0] != [] then [s[0]] else [];
      KeptAt(t, k - 1);
      assert t[..k - 1] == s[..k][1..];
      assert t[k - 1..] == s[k..];
      assert Kept(s) == h + Kept(t);
      assert s[..k][0] == s[0];
      assert Kept(s[..k]) == h + Kept(t[..k - 1]);
      var front, back := Kept(t[..k - 1]), Kept(s[k..]);
      assert h + (front + back) == (h + front) + back;
    }
  }

  lemma {:induction false} KeptAllNonEmpty(xs: seq<string>)
    requires forall x <- xs :: x != []
    ensures Kept(xs) == xs
  {
    if xs != [] {
      assert forall x <- xs[1..] :: x in xs;
      KeptAllNonEmpty(xs[1..]);
      assert xs[0] in xs;
      assert [xs[0]] + xs[1..] == xs;
    }
  }

  /** The candidate names are non-empty lower-case words. */
  lemma CandidatesAreWords(data: string)
    ensures forall n <- Candidates(data) :: n != [] && IsLowerWord(n)
  {
    var stripped := Stripped(Split(data));
    var kept := Kept(stripped);
    KeptMembers(stripped);
    forall n <- Candidates(data) ensures n != [] && IsLowerWord(n) {
      var i :| 0 <= i < |kept| && n == LowerStr(kept[i]);
      assert kept[i] in kept;
      var j :| 0 <= j < |stripped| && stripped[j] == kept[i];
      LowerOfLetters(kept[i]);
    }
  }

  /** Candidates of a join are the candidates of the parts. */
  lemma CandidatesConcat(a: string, sep: char, b: string)
    requires IsSeparator(sep)
    ensures Candidates(a + [sep] + b) == Candidates(a) + Candidates(b)
  {
    SplitConcat(a, sep, b);
    var pa, pb := Split(a), Split(b);
    StrippedConcat(pa, pb);
    KeptConcat(Stripped(pa), Stripped(pb));
    LoweredConcat(Kept(Stripped(pa)), Kept(Stripped(pb)));
  }

  lemma StrippedConcat(a: seq<string>, b: seq<string>)
    ensures Stripped(a + b) == Stripped(a) + Stripped(b)
  {
  }

  lemma LoweredConcat(a: seq<string>, b: seq<string>)
    ensures Lowered(a + b) == Lowered(a) + Lowered(b)
  {
  }

  // ---------------------------------------------------------------------------
  // Lemmas on deduplication

  /** One step of the fold extends the reference deduplication by one lower-cased element. */
  lemma StepIsDistinct(p: seq<string>, x: string)
    ensures Step(Distinct(p), x) == Distinct(p + [LowerStr(x)])
  {
    var q := p + [LowerStr(x)];
    assert q[..|q| - 1] == p;
  }

  lemma LoweredCons(p: seq<string>, xs: seq<string>)
    requires xs != []
    ensures p + [LowerStr(xs[0])] + Lowered(xs[1..]) == p + Lowered(xs)
  {
    assert Lowered(xs) == [LowerStr(xs[0])] + Lowered(xs[1..]);
  }

  /** The source's left fold computes the reference deduplication. */
  lemma {:induction false} ReduceIsDistinct(p: seq<string>, xs: seq<string>)
    ensures Reduce(Distinct(p), xs) == Distinct(p + Lowered(xs))
    decreases |xs|
  {
    if xs == [] {
      assert p + Lowered(xs) == p;
    } else {
      var q := p + [LowerStr(xs[0])];
      StepIsDistinct(p, xs[0]);
      ReduceIsDistinct(q, xs[1..]);
      LoweredCons(p, xs);
    }
  }

  /** Deduplication changes nothing when there is nothing to remove. */
  lemma {:induction false} DistinctOfDistinct(t: seq<string>)
    requires NoDuplicates(t)
    ensures Distinct(t) == t
  {
    if t != [] {
      var init := t[..|t| - 1];
      DistinctOfDistinct(init);
      assert t[|t| - 1] !in init;
      assert init + [t[|t| - 1]] == t;
    }
  }

  /** Deduplicating a longer sequence only appends to the result. */
  lemma {:induction false} DistinctPrefix(p: seq<string>, q: seq<string>)
    ensures |Distinct(p)| <= |Distinct(p + q)|
    ensures Distinct(p + q)[..|Distinct(p)|] == Distinct(p)
    decreases |q|
  {
    if q == [] {
      assert p + q == p;
    } else {
      var q' := q[..|q| - 1];
      DistinctPrefix(p, q');
      assert (p + q)[..|p + q| - 1] == p + q';
    }
  }

  lemma {:induction false} FirstIndexSnoc(t: seq<string>, x: string, y: string)
    requires x in t
    ensures FirstIndex(t + [y], x) == FirstIndex(t, x)
  {
    if t[0] != x {
      assert (t + [y])[1..] == t[1..] + [y];
      FirstIndexSnoc(t[1..], x, y);
    }
  }

  lemma {:induction false} FirstIndexLast(t: seq<string>, x: string)
    requires x !in t
    ensures FirstIndex(t + [x], x) == |t|
  {
    if t != [] {
      assert (t + [x])[1..] == t[1..] + [x];
      FirstIndexLast(t[1..], x);
    }
  }

  /** The reference deduplication keeps first occurrences in their original order. */
  lemma {:induction false} DistinctOrder(t: seq<string>)
    ensures InFirstOccurrenceOrder(Distinct(t), t)
  {
    if t != [] {
      var init, last := t[..|t| - 1], t[|t| - 1];
      assert t == init + [last];
      DistinctOrder(init);
      var d := Distinct(init);
      forall x <- d ensures FirstIndex(t, x) == FirstIndex(init, x) {
        FirstIndexSnoc(init, x, last);
      }
      if last !in init {
        FirstIndexLast(init, last);
        assert Distinct(t) == d + [last];
        forall i | 0 <= i < |d| ensures FirstIndex(t, d[i]) < FirstIndex(t, last) {
          assert d[i] in d;
        }
      }
    }
  }

  // ---------------------------------------------------------------------------
  // Properties of chop

  /** Names come in the order of their first occurrence among the candidates. */
  lemma ChopOrder(data: string)
    ensures InFirstOccurrenceOrder(Chop(data), Candidates(data))
  {
    DistinctOrder(Candidates(data));
  }

  /**
   * A name is in the output exactly when some piece, stripped to its letters and
   * lower-cased, is that (non-empty) name.
   */
  lemma ChopComplete(data: string, name: string)
    ensures name in Chop(data) <==>
      exists p <- Split(data) :: Letters(p) != [] && LowerStr(Letters(p)) == name
  {
    var pieces := Split(data);
    var kept := Kept(Stripped(pieces));
    LoweredMembers(kept, name);
    KeptMembers(Stripped(pieces));
    if exists x <- kept :: LowerStr(x) == name {
      var x :| x in kept && LowerStr(x) == name;
      StrippedMembers(pieces, x);
    }
    if exists p <- pieces :: Letters(p) != [] && LowerStr(Letters(p)) == name {
      var p :| p in pieces && Letters(p) != [] && LowerStr(Letters(p)) == name;
      StrippedMembers(pieces, Letters(p));
      assert Letters(p) in kept;
    }
  }

  lemma LoweredMembers(xs: seq<string>, name: string)
    ensures name in Lowered(xs) <==> exists x <- xs :: LowerStr(x) == name
  {
    if name in Lowered(xs) {
      var i :| 0 <= i < |xs| && Lowered(xs)[i] == name;
      assert xs[i] in xs;
    }
    if exists x <- xs :: LowerStr(x) == name {
      var x :| x in xs && LowerStr(x) == name;
      var i :| 0 <= i < |xs| && xs[i] == x;
      assert Lowered(xs)[i] == name;
    }
  }

  lemma StrippedMembers(pieces: seq<string>, s: string)
    ensures s in Stripped(pieces) <==> exists p <- pieces :: Letters(p) == s
  {
    if s in Stripped(pieces) {
      var i :| 0 <= i < |pieces| && Stripped(pieces)[i] == s;
      assert pieces[i] in pieces;
    }
    if exists p <- pieces :: Letters(p) == s {
      var p :| p in pieces && Letters(p) == s;
      var i :| 0 <= i < |pieces| && pieces[i] == p;
      assert Stripped(pieces)[i] == s;
    }
  }

  /** The output is empty exactly when the input holds no letter (so `chop("") == []`). */
  lemma ChopEmpty(data: string)
    ensures Chop(data) == [] <==> forall i :: 0 <= i < |data| ==> !IsLetter(data[i])
  {
    if exists i :: 0 <= i < |data| && IsLetter(data[i]) {
      var i :| 0 <= i < |data| && IsLetter(data[i]);
      var p := PieceWithLetter(data, i);
      ChopComplete(data, LowerStr(Letters(p)));
    } else if Chop(data) != [] {
      var n := Chop(data)[0];
      ChopComplete(data, n);
      var p :| p in Split(data) && Letters(p) != [] && LowerStr(Letters(p)) == n;
      PieceWithoutLetters(data, p);
    }
  }

  /** The piece holding a letter of the input keeps a letter after stripping. */
  lemma PieceWithLetter(data: string, i: nat) returns (p: string)
    requires i < |data| && IsLetter(data[i])
    ensures p in Split(data) && Letters(p) != []
  {
    SplitCharacters(data);
    assert data[i] in data;
    p :| p in Split(data) && data[i] in p;
    var k :| 0 <= k < |p| && p[k] == data[i];
    LettersEmpty(p);
  }

  /** In an input without letters every piece strips to nothing. */
  lemma PieceWithoutLetters(data: string, p: string)
    requires forall i :: 0 <= i < |data| ==> !IsLetter(data[i])
    requires p in Split(data)
    ensures Letters(p) == []
  {
    SplitCharacters(data);
    forall k | 0 <= k < |p| ensures !IsLetter(p[k]) {
      assert p[k] in p;
      var i :| 0 <= i < |data| && data[i] == p[k];
    }
    LettersEmpty(p);
  }

  /** There are never more names than pieces. */
  lemma ChopLength(data: string)
    ensures |Chop(data)| <= CountSeparators(data) + 1
  {
  }

  /** Normalizing the ','-join of normalized names gives the same names. */
  lemma ChopIdempotent(data: string)
    ensures Chop(Join(Chop(data), ",")) == Chop(data)
  {
    var names := Chop(data);
    var joined := Join(names, ",");
    if names == [] {
      assert Split(joined) == [[]];
      assert Stripped([[]]) == [[]];
      assert Kept(Stripped(Split(joined))) == [];
      assert Candidates(joined) == [];
    } else {
      forall n <- names ensures HasNoSeparator(n) && IsLetters(n) {
        LowerWordIsLetters(n);
      }
      JoinSplit(names);
      forall i | 0 <= i < |names| ensures Letters(names[i]) == names[i] {
        LettersOfLetters(names[i]);
      }
      assert Stripped(names) == names;
      KeptAllNonEmpty(names);
      forall i | 0 <= i < |names| ensures LowerStr(names[i]) == names[i] {
        assert names[i] in names;
        LowerOfLowerWord(names[i]);
      }
      assert Lowered(names) == names;
      assert Candidates(joined) == names;
      DistinctOfDistinct(names);
    }
  }

  /**
   * `chop(a + ',' + b)` starts with `chop(a)`: names from `a` win the deduplication,
   * and the result holds exactly the names of both parts.
   */
  lemma ChopConcat(a: string, b: string)
    ensures |Chop(a)| <= |Chop(a + "," + b)|
    ensures Chop(a + "," + b)[..|Chop(a)|] == Chop(a)
    ensures forall n :: n in Chop(a + "," + b) <==> n in Chop(a) || n in Chop(b)
  {
    assert a + "," + b == a + [','] + b;
    CandidatesConcat(a, ',', b);
    DistinctPrefix(Candidates(a), Candidates(b));
  }
}

=== FILE: create_app_script.dfy ===
/**
 * The stand-alone generator `createApp.js`: take the first space-separated word of the
 * argument as the project directory, run the shared checks, clone the development template
 * and install. It generates no routes or pages.
 */
module CreateAppScript {
  import opened Maybe
  import opened Text
  import opened ProjectDir
  import opened Scaffold

  /** `s.split(' ')[0]`: everything before the first space. */
  function FirstToken(s: string): (t: string)
    ensures ' ' !in t
    ensures |t| <= |s| && s[..|t|] == t
    ensures |t| < |s| ==> s[|t|] == ' '
  {
    if s == [] || s[0] == ' ' then []
    else
      var rest := FirstToken(s[1..]);
      assert s[1..][..|rest|] == s[1..|rest| + 1];
      [s[0]] + rest
  }

  /**
   * The three properties of `FirstToken` determine it: any space-free prefix that runs to the
   * end or to a space is the first token.
   */
  lemma {:induction false} FirstTokenUnique(s: string, t: string)
    requires ' ' !in t
    requires |t| <= |s| && s[..|t|] == t
    requires |t| < |s| ==> s[|t|] == ' '
    ensures FirstToken(s) == t
  {
    if t != [] {
      assert s[0] == t[0];
      assert t[0] != ' ' by { assert t[0] in t; }
      assert ' ' !in t[1..] by {
        forall k | 0 <= k < |t| - 1 ensures t[1..][k] != ' ' {
          assert t[1..][k] == t[k + 1] && t[k + 1] in t;
        }
      }
      assert s[1..][..|t| - 1] == t[1..];
      FirstTokenUnique(s[1..], t[1..]);
      assert [t[0]] + t[1..] == t;
    }
  }

  /** A space-free word followed by a space and anything else yields that word. */
  lemma FirstWord(word: string, rest: string)
    requires ' ' !in word
    ensures FirstToken(word + " " + rest) == word
    ensures FirstToken(word) == word
  {
    var s := word + " " + rest;
    assert s[..|word|] == word;
    assert s[|word|] == ' ';
    FirstTokenUnique(s, word);
    assert word[..|word|] == word;
    FirstTokenUnique(word, word);
  }

  /**
   * `argus && (projectName = argus.split(' ')[0])`: `None` when the argument is missing or
   * empty, which is the "Please specify the project directory" exit.
   */
  function ProjectName(arg: Option<string>): (name: Option<string>)
    ensures name.None? <==> !Truthy(arg)
    ensures name.Some? ==> ' ' !in name.value && StartsWith(arg.value, name.value)
    ensures name.Some? && |name.value| < |arg.value| ==> arg.value[|name.value|] == ' '
  {
    if Truthy(arg) then Some(FirstToken(arg.value)) else None
  }

  /** One run of `createApp.js` with the given argument. */
  function CreateApp(arg: Option<string>, p: Probe): (o: Outcome)
    ensures o.jobs == []
    ensures o.abort == Some(MissingName) <==> !Truthy(arg)
    ensures o.install.Some? <==> o.abort.None?
    ensures o.install.Some? <==> Truthy(arg) && ChecksPass(p) && p.cloneSucceeded
    ensures o.abort == Some(CloneFailed) <==> Truthy(arg) && ChecksPass(p) && !p.cloneSucceeded
    ensures o.install.Some? ==> (o.install.value == "yarn install" <==> p.yarnAvailable)
    ensures o.install.Some? ==> forall f <- p.listing :: !IsConflict(f) && (f in o.removed <==> IsErrorLog(f))
    ensures o.removed != [] ==> IsSafeToCreateProjectIn(p.listing).safe
  {
    match ProjectName(arg)
    case None => Stopped(MissingName)
    case Some(_) =>
      var checked := Preflight(p);
      if checked.Stop? then checked.outcome
      else Finish(checked, p.cloneSucceeded, [], false)
  }
}

=== FILE: create_page.dfy ===
/**
 * `createPage(name, { batch })`: normalize the requested names, build one page record per
 * name and generate those pages. No router manifest is touched.
 */
module CreatePage {
  import opened Maybe
  import opened Chop
  import opened Records
  import opened Jobs
  import opened Batch
  import opened GeneratePage
  import CreateRouter

  /** What one `createPage` call does: the page records and the single `generatePage` run. */
  datatype PageCommand = PageCommand(pages: seq<Page>, run: PageRun)

  /**
   * `answer` is the prompted list when `batch` is set; `dirs` lists `src/pages`, `None` when
   * it cannot be read (the rejection then reaches the `catch`, which exits with status 1).
   */
  function CreatePage(name: string, answer: Option<string>, dirs: Option<seq<string>>): (c: PageCommand)
    ensures |c.pages| == |Chop.Chop(BatchInput(name, answer))|
    ensures forall i :: 0 <= i < |c.pages| ==> c.pages[i].name == Chop.Chop(BatchInput(name, answer))[i]
    ensures forall p <- c.pages :: WellFormedPage(p)
    ensures forall p <- c.pages :: p.componentName == Capital(p.name)
    ensures forall i, j :: 0 <= i < j < |c.pages| ==>
      c.pages[i].name != c.pages[j].name && c.pages[i].componentName != c.pages[j].componentName
    ensures c.run.crashed <==> dirs.None?
    ensures dirs.None? ==> c.run.jobs == []
    ensures dirs.Some? ==> |c.run.jobs| == 4 * |c.pages|
    ensures dirs.Some? ==> forall i, k :: 0 <= i < |c.pages| && 0 <= k < 4 ==>
      c.run.jobs[4 * i + k] == Job(PagesDir + c.pages[i].componentName + "/" + PageFiles[k].0, PageFiles[k].1,
                                   PageData(c.pages[i].name, c.pages[i].componentName))
  {
    var names := Chop.Chop(BatchInput(name, answer));
    var pages := PagesFor(names);
    PagesForNames(names);
    var items := PageItems(pages);
    PageComponentNames(pages);
    match dirs
    case None => PageCommand(pages, GeneratePage.GeneratePage(items, dirs))
    case Some(listing) =>
      GeneratesEveryItem(items, listing);
      PageCommand(pages, GeneratePage.GeneratePage(items, dirs))
  }

  /** A page record always carries a truthy component name once it came from a normalized name. */
  lemma PageComponentNames(pages: seq<Page>)
    requires forall p <- pages :: WellFormedPage(p)
    ensures forall i :: 0 <= i < |pages| ==> ComponentName(PageItems(pages)[i]) == Some(pages[i].componentName)
  {
    forall i | 0 <= i < |pages| ensures ComponentName(PageItems(pages)[i]) == Some(pages[i].componentName) {
      assert pages[i] in pages;
    }
  }

  /**
   * The names reported as duplicates are the capitalised names whose directory already
   * exists, and those pages are generated all the same.
   */
  lemma PageDuplicates(name: string, answer: Option<string>, dirs: seq<string>)
    ensures forall p <- CreatePage(name, answer, Some(dirs)).pages ::
      p.componentName in CreatePage(name, answer, Some(dirs)).run.duplicates <==> p.componentName in dirs
    ensures forall d <- CreatePage(name, answer, Some(dirs)).run.duplicates ::
      exists p <- CreatePage(name, answer, Some(dirs)).pages :: p.componentName == d
    ensures CreatePage(name, answer, Some(dirs)).run.warning.Some? <==>
      exists p <- CreatePage(name, answer, Some(dirs)).pages :: p.componentName in dirs
  {
    var c := CreatePage(name, answer, Some(dirs));
    PageItemsDuplicates(c.pages, dirs);
  }

  /** The duplicate report of a list of page records, record by record. */
  lemma PageItemsDuplicates(pages: seq<Page>, dirs: seq<string>)
    ensures forall p <- pages :: p.componentName in Intersection(PageItems(pages), dirs) <==> p.componentName in dirs
    ensures forall d <- Intersection(PageItems(pages), dirs) :: exists p <- pages :: p.componentName == d
    ensures Intersection(PageItems(pages), dirs) != [] <==> exists p <- pages :: p.componentName in dirs
  {
    var items := PageItems(pages);
    var dups := Intersection(items, dirs);
    forall p <- pages ensures PageItem(p) in items {
      var i :| 0 <= i < |pages| && pages[i] == p;
      assert items[i] == PageItem(p);
    }
    IntersectionSources(items, dirs);
    forall d <- dups ensures exists p <- pages :: p.componentName == d {
      var it :| it in items && it.componentName == Some(d);
      var i :| 0 <= i < |items| && items[i] == it;
      assert pages[i] in pages;
    }
    if dups != [] {
      assert dups[0] in dups;
    }
  }

  /** Two item lists with the same names and component names, position by position, plan the same jobs. */
  lemma {:induction false} SamePlan(a: seq<Item>, b: seq<Item>)
    requires |a| == |b|
    requires forall i :: 0 <= i < |a| ==> a[i].name == b[i].name && ComponentName(a[i]) == ComponentName(b[i])
    ensures PlanItems(a) == PlanItems(b)
  {
    if a != [] {
      SamePlan(a[1..], b[1..]);
    }
  }

  /**
   * `createPage` and `createRouter` on the same input plan exactly the same page files from
   * the same templates with the same data: the router's pages are found through the last
   * segment of each route's `component`, the page command's through `componentName`.
   */
  lemma SamePagesAsCreateRouter(name: string, answer: Option<string>, dirs: Option<seq<string>>, manifest: Option<string>)
    ensures CreatePage(name, answer, dirs).run.jobs == CreateRouter.CreateRouter(name, answer, dirs, manifest).pages.jobs
  {
    var names := Chop.Chop(BatchInput(name, answer));
    var pages := PagesFor(names);
    var routes := RoutesFor(names);
    PagesForNames(names);
    PageComponentNames(pages);
    CreateRouter.RouteComponentNames(names);
    SamePlan(PageItems(pages), RouteItems(routes));
  }
}

=== FILE: create_router.dfy ===
/**
 * `createRouter(name, { batch })`: normalize the requested names, build one route record per
 * name, generate the pages of those routes and then the router manifest.
 */
module CreateRouter {
  import opened Maybe
  import opened Text
  import opened Seqs
  import opened Chop
  import opened Records
  import opened Jobs
  import opened Batch
  import opened GeneratePage
  import opened GenerateRouter

  /**
   * What one `createRouter` call does. `router` is `None` when either generator threw: a
   * rejection in `generatePage` reaches the `catch` before `generateRouter` runs, and the
   * `catch` then exits with status 1.
   */
  datatype RouterCommand = RouterCommand(routes: seq<Route>, pages: PageRun, router: Option<RouterRun>)

  /** Every template job of the command, in the order they are compiled. */
  function Compiled(c: RouterCommand): seq<Job>
  {
    c.pages.jobs + (if c.router.Some? then [c.router.value.job] else [])
  }

  /**
   * `answer` is the prompted list when `batch` is set; `dirs` lists `src/pages` and
   * `manifest` is the text of `src/routes/routers.js`, each `None` when it cannot be read.
   */
  function CreateRouter(name: string, answer: Option<string>, dirs: Option<seq<string>>, manifest: Option<string>): (c: RouterCommand)
    ensures Keys(c.routes) == Chop.Chop(BatchInput(name, answer))
    ensures forall r <- c.routes :: WellFormedRoute(r)
    ensures forall i :: 0 <= i < |c.routes| ==> c.routes[i].component == "pages/" + Capital(c.routes[i].key)
    ensures NoDuplicates(Keys(c.routes))
    ensures c.pages.crashed <==> dirs.None?
    ensures c.pages.duplicates == [] && c.pages.warning.None?
    ensures dirs.None? ==> c.pages.jobs == [] && c.router.None?
    ensures dirs.Some? ==> |c.pages.jobs| == 4 * |c.routes|
    ensures dirs.Some? ==> forall i, k :: 0 <= i < |c.routes| && 0 <= k < 4 ==>
      c.pages.jobs[4 * i + k].target == PagesDir + Capital(c.routes[i].key) + "/" + PageFiles[k].0
    ensures dirs.Some? ==> c.router == GenerateRouter.GenerateRouter(c.routes, manifest)
    ensures c.router.Some? <==> dirs.Some? && manifest.Some?
    ensures c.router.None? ==> Compiled(c) == c.pages.jobs
    ensures c.router.Some? ==> |Compiled(c)| == 4 * |c.routes| + 1
    ensures c.router.Some? ==> Compiled(c)[|Compiled(c)| - 1].target == RouterFile
  {
    var names := Chop.Chop(BatchInput(name, answer));
    var routes := RoutesFor(names);
    RoutesForNames(names);
    RoutePages(names, dirs);
    var pages := GeneratePage.GeneratePage(RouteItems(routes), dirs);
    RouterCommand(routes, pages, if pages.crashed then None else GenerateRouter.GenerateRouter(routes, manifest))
  }

  /** The pages generated for the routes of normalized names: four files under each capitalised name. */
  lemma RoutePages(names: seq<string>, dirs: Option<seq<string>>)
    requires forall n <- names :: n != [] && IsLowerWord(n)
    ensures var run := GeneratePage.GeneratePage(RouteItems(RoutesFor(names)), dirs);
      && (run.crashed <==> dirs.None?) && run.duplicates == [] && run.warning.None?
      && (dirs.None? ==> run.jobs == [])
      && (dirs.Some? ==> |run.jobs| == 4 * |names|)
      && (dirs.Some? ==> forall i, k :: 0 <= i < |names| && 0 <= k < 4 ==>
           run.jobs[4 * i + k].target == PagesDir + Capital(RoutesFor(names)[i].key) + "/" + PageFiles[k].0)
  {
    var routes := RoutesFor(names);
    var items := RouteItems(routes);
    RouteItemsComponentName(routes, dirs);
    RoutesNeverDuplicates(routes, dirs);
    RouteComponentNames(names);
    if dirs.Some? {
      GeneratesEveryItem(items, dirs.value);
    }
  }

  /** The page directory of a route built from a normalized name is the capitalised name. */
  lemma RouteComponentNames(names: seq<string>)
    requires forall n <- names :: n != [] && IsLowerWord(n)
    ensures forall i :: 0 <= i < |names| ==>
      ComponentName(RouteItems(RoutesFor(names))[i]) == Some(Capital(names[i]))
  {
    forall i | 0 <= i < |names|
      ensures ComponentName(RouteItems(RoutesFor(names))[i]) == Some(Capital(names[i]))
    {
      assert names[i] in names;
      CapitalRoundTrip(names[i]);
      LastSegmentAfterSlash("pages/", Capital(names[i]));
    }
  }

  /** With a batch, the positional name becomes the first route whenever it holds any letter. */
  lemma PositionalNameFirst(name: string, answer: Option<string>, dirs: Option<seq<string>>, manifest: Option<string>)
    requires exists i :: 0 <= i < |name| && IsLetter(name[i])
    ensures |Chop.Chop(name)| > 0
    ensures CreateRouter(name, answer, dirs, manifest).routes[..|Chop.Chop(name)|] == RoutesFor(Chop.Chop(name))
  {
    var c := CreateRouter(name, answer, dirs, manifest);
    ChopEmpty(name);
    var names := Chop.Chop(BatchInput(name, answer));
    assert names[..|Chop.Chop(name)|] == Chop.Chop(name);
    assert c.routes == RoutesFor(names);
    RoutesForPrefix(names, |Chop.Chop(name)|);
  }
}

=== FILE: generate_page.dfy ===
/**
 * `generatePage`: report the items whose component directory already exists, then plan
 * four template jobs for every item.
 */
module GeneratePage {
  import opened Maybe
  import opened Text
  import opened Records
  import opened Jobs

  /**
   * The fields `generatePage` reads from an item. Page records carry `componentName`,
   * route records carry `component`; a missing field is `None` (JavaScript's `undefined`).
   */
  datatype Item = Item(name: string, componentName: Option<string>, component: Option<string>)

  function PageItem(p: Page): Item
  {
    Item(p.name, Some(p.componentName), None)
  }

  function RouteItem(r: Route): Item
  {
    Item(r.name, None, Some(r.component))
  }

  function PageItems(pages: seq<Page>): (items: seq<Item>)
    ensures |items| == |pages|
  {
    seq(|pages|, i requires 0 <= i < |pages| => PageItem(pages[i]))
  }

  function RouteItems(routes: seq<Route>): (items: seq<Item>)
    ensures |items| == |routes|
  {
    seq(|routes|, i requires 0 <= i < |routes| => RouteItem(routes[i]))
  }

  /** `item.componentName` is truthy: present and not the empty string. */
  predicate HasComponentName(item: Item)
  {
    item.componentName.Some? && item.componentName.value != []
  }

  /**
   * `item.componentName || item.component.split('/').pop()`. `None` is the TypeError raised
   * when the item has neither a truthy `componentName` nor a `component`.
   */
  function ComponentName(item: Item): (r: Option<string>)
    ensures r.None? <==> !HasComponentName(item) && item.component.None?
    ensures HasComponentName(item) ==> r == item.componentName
    ensures !HasComponentName(item) && r.Some? ==> '/' !in r.value
    ensures !HasComponentName(item) && item.component.Some? ==> r == Some(LastSegment(item.component.value))
  {
    if HasComponentName(item) then item.componentName
    else if item.component.Some? then Some(LastSegment(item.component.value))
    else None
  }

  /** The component names reported as duplicates: `componentName`s found in the page directory, in order. */
  function Intersection(items: seq<Item>, dirs: seq<string>): (dups: seq<string>)
    ensures |dups| <= |items|
    ensures forall d <- dups :: d in dirs
    ensures forall it <- items :: it.componentName.Some? && it.componentName.value in dirs ==> it.componentName.value in dups
  {
    if items == [] then []
    else
      var head := items[0];
      var rest := Intersection(items[1..], dirs);
      assert forall it <- items :: it == head || it in items[1..];
      if head.componentName.Some? && head.componentName.value in dirs then [head.componentName.value] + rest
      else rest
  }

  /** The four page files and the template each is rendered from. */
  const PageFiles: seq<(string, string)> := [
    ("index.js", "page.js.hbs"),
    ("io.js", "io.js.hbs"),
    ("store.js", "store.js.hbs"),
    ("style.less", "page.less.hbs")
  ]

  const PagesDir: string := "src/pages/"

  /** `createPaths`: the job rendering `template` into `src/pages/<componentName>/<file>`. */
  function CreatePaths(name: string, componentName: string, file: string, template: string): Job
  {
    Job(PagesDir + componentName + "/" + file, template, PageData(name, componentName))
  }

  /**
   * The four jobs of one item, in the order index, io, store, style. The element-wise
   * ensures only exposes the comprehension to the plan lemmas; `ItemJobsLayout` states what
   * the four jobs are.
   */
  function ItemJobs(name: string, componentName: string): (jobs: seq<Job>)
    ensures |jobs| == 4
    ensures forall k :: 0 <= k < 4 ==>
      jobs[k] == CreatePaths(name, componentName, PageFiles[k].0, PageFiles[k].1)
  {
    seq(4, k requires 0 <= k < 4 => CreatePaths(name, componentName, PageFiles[k].0, PageFiles[k].1))
  }

  /**
   * The four files of an item: `index.js`, `io.js`, `store.js` and `style.less` under
   * `src/pages/<componentName>/`, each from its own template, all with the same data.
   */
  lemma ItemJobsLayout(name: string, componentName: string)
    ensures ItemJobs(name, componentName)[0] ==
      Job("src/pages/" + componentName + "/index.js", "page.js.hbs", PageData(name, componentName))
    ensures ItemJobs(name, componentName)[1] ==
      Job("src/pages/" + componentName + "/io.js", "io.js.hbs", PageData(name, componentName))
    ensures ItemJobs(name, componentName)[2] ==
      Job("src/pages/" + componentName + "/store.js", "store.js.hbs", PageData(name, componentName))
    ensures ItemJobs(name, componentName)[3] ==
      Job("src/pages/" + componentName + "/style.less", "page.less.hbs", PageData(name, componentName))
    ensures forall k :: 0 <= k < 4 ==>
      StartsWith(ItemJobs(name, componentName)[k].target, "src/pages/" + componentName + "/") &&
      ItemJobs(name, componentName)[k].data == PageData(name, componentName)
    ensures forall k, l :: 0 <= k < l < 4 ==>
      ItemJobs(name, componentName)[k].target != ItemJobs(name, componentName)[l].target
  {
    ItemTargets(componentName);
  }

  /** The four targets share the item's directory and differ in the file name after it. */
  lemma ItemTargets(componentName: string)
    ensures forall k :: 0 <= k < 4 ==>
      PagesDir + componentName + "/" + PageFiles[k].0 == "src/pages/" + componentName + "/" + PageFiles[k].0
    ensures forall k :: 0 <= k < 4 ==>
      StartsWith(PagesDir + componentName + "/" + PageFiles[k].0, "src/pages/" + componentName + "/")
    ensures forall k, l :: 0 <= k < l < 4 ==>
      PagesDir + componentName + "/" + PageFiles[k].0 != PagesDir + componentName + "/" + PageFiles[l].0
  {
    var dir := PagesDir + componentName + "/";
    forall k, l | 0 <= k < l < 4
      ensures dir + PageFiles[k].0 != dir + PageFiles[l].0
    {
      assert (dir + PageFiles[k].0)[|dir|..] == PageFiles[k].0;
      assert (dir + PageFiles[l].0)[|dir|..] == PageFiles[l].0;
    }
    forall k | 0 <= k < 4
      ensures StartsWith(dir + PageFiles[k].0, dir)
    {
      assert (dir + PageFiles[k].0)[..|dir|] == dir;
    }
  }

  /** The jobs compiled by the `forEach`, and whether it stopped on an item without a component name. */
  datatype PagePlan = PagePlan(jobs: seq<Job>, crashed: bool)

  function PlanItems(items: seq<Item>): PagePlan
  {
    if items == [] then PagePlan([], false)
    else
      match ComponentName(items[0])
      case None => PagePlan([], true)
      case Some(cn) =>
        var rest := PlanItems(items[1..]);
        PagePlan(ItemJobs(items[0].name, cn) + rest.jobs, rest.crashed)
  }

  /** What one `generatePage(data)` call does. */
  datatype PageRun = PageRun(
    duplicates: seq<string>,         // the `intersection`
    warning: Option<seq<string>>,    // the list printed by `warn`, when one is printed
    jobs: seq<Job>,                  // the `compile` calls, in order
    crashed: bool)                   // the call threw

  /**
   * `dirs` is what `readdirSync` answers for `src/pages`: `None` when the folder cannot be
   * read, and then the call throws before it warns or compiles anything.
   */
  function GeneratePage(items: seq<Item>, dirs: Option<seq<string>>): (run: PageRun)
    ensures dirs.None? ==> run.jobs == [] && run.duplicates == []
    ensures dirs.Some? ==> run.duplicates == Intersection(items, dirs.value)
    ensures run.warning.Some? <==> run.duplicates != []
    ensures run.warning.Some? ==> run.warning.value == run.duplicates
    ensures run.crashed <==> dirs.None? || exists it <- items :: ComponentName(it).None?
  {
    match dirs
    case None => PageRun([], None, [], true)
    case Some(listing) =>
      var dups := Intersection(items, listing);
      var plan := PlanItems(items);
      PlanCrashes(items);
      PageRun(dups, if dups != [] then Some(dups) else None, plan.jobs, plan.crashed)
  }

  // ---------------------------------------------------------------------------

  /** The plan stops exactly when some item has no component name. */
  lemma {:induction false} PlanCrashes(items: seq<Item>)
    ensures PlanItems(items).crashed <==> exists it <- items :: ComponentName(it).None?
  {
    if items != [] {
      PlanCrashes(items[1..]);
      assert forall it <- items :: it == items[0] || it in items[1..];
      assert forall it <- items[1..] :: it in items;
    }
  }

  /** Every item with a component name contributes exactly its four jobs, in item order. */
  lemma {:induction false} PlanShape(items: seq<Item>)
    requires forall it <- items :: ComponentName(it).Some?
    ensures !PlanItems(items).crashed
    ensures |PlanItems(items).jobs| == 4 * |items|
    ensures forall i, k :: 0 <= i < |items| && 0 <= k < 4 ==>
      PlanItems(items).jobs[4 * i + k] ==
        CreatePaths(items[i].name, ComponentName(items[i]).value, PageFiles[k].0, PageFiles[k].1)
  {
    if items != [] {
      assert items[0] in items;
      assert forall it <- items[1..] :: it in items;
      PlanShape(items[1..]);
      var head := ItemJobs(items[0].name, ComponentName(items[0]).value);
      var rest := PlanItems(items[1..]).jobs;
      assert PlanItems(items).jobs == head + rest;
      ShapeCons(items, head, rest);
    }
  }

  /** `jobs` holds the four jobs of every item, item after item. */
  predicate Shaped(items: seq<Item>, jobs: seq<Job>)
    requires forall it <- items :: ComponentName(it).Some?
  {
    && |jobs| == 4 * |items|
    && forall i, k :: 0 <= i < |items| && 0 <= k < 4 ==>
      jobs[4 * i + k] == CreatePaths(items[i].name, ComponentName(items[i]).value, PageFiles[k].0, PageFiles[k].1)
  }

  /** The four jobs of the first item followed by the jobs of the others. */
  lemma ShapeCons(items: seq<Item>, head: seq<Job>, rest: seq<Job>)
    requires items != [] && forall it <- items :: ComponentName(it).Some?
    requires head == ItemJobs(items[0].name, ComponentName(items[0]).value)
    requires forall it <- items[1..] :: ComponentName(it).Some?
    requires Shaped(items[1..], rest)
    ensures Shaped(items, head + rest)
  {
    forall i, k | 0 <= i < |items| && 0 <= k < 4
      ensures (head + rest)[4 * i + k] ==
        CreatePaths(items[i].name, ComponentName(items[i]).value, PageFiles[k].0, PageFiles[k].1)
    {
      if i > 0 {
        assert (head + rest)[4 * i + k] == rest[4 * (i - 1) + k];
        assert items[1..][i - 1] == items[i];
      }
    }
  }


  /** The first job of every item renders its `index.js` from `page.js.hbs`. */
  lemma PlanIndexFiles(items: seq<Item>)
    requires forall it <- items :: ComponentName(it).Some?
    ensures |PlanItems(items).jobs| == 4 * |items|
    ensures forall i :: 0 <= i < |items| ==>
      PlanItems(items).jobs[4 * i] == CreatePaths(items[i].name, ComponentName(items[i]).value, "index.js", "page.js.hbs")
  {
    PlanShape(items);
    var jobs := PlanItems(items).jobs;
    forall i | 0 <= i < |items|
      ensures jobs[4 * i] == CreatePaths(items[i].name, ComponentName(items[i]).value, "index.js", "page.js.hbs")
    {
      var k := 0;
      assert jobs[4 * i + k] ==
        CreatePaths(items[i].name, ComponentName(items[i]).value, PageFiles[k].0, PageFiles[k].1);
    }
  }

  /** Whatever the items, every planned file lies below `src/pages/`. */
  lemma {:induction false} PlanUnderPages(items: seq<Item>)
    ensures forall j :: 0 <= j < |PlanItems(items).jobs| ==> StartsWith(PlanItems(items).jobs[j].target, PagesDir)
  {
    if items != [] && ComponentName(items[0]).Some? {
      PlanUnderPages(items[1..]);
      var cn := ComponentName(items[0]).value;
      var head := ItemJobs(items[0].name, cn);
      var rest := PlanItems(items[1..]).jobs;
      forall k | 0 <= k < 4 ensures StartsWith(head[k].target, PagesDir) {
        var t := head[k].target;
        assert t == PagesDir + (cn + "/" + PageFiles[k].0);
        assert t[..|PagesDir|] == PagesDir;
      }
      assert forall j :: 0 <= j < |head + rest| ==> (head + rest)[j] == if j < 4 then head[j] else rest[j - 4];
    }
  }

  /**
   * No filtering: when `src/pages` is readable and every item has a name, every item,
   * including one reported as a duplicate, is planned with all four files under
   * `src/pages/<componentName>/`, and no other job exists.
   */
  lemma GeneratesEveryItem(items: seq<Item>, dirs: seq<string>)
    requires forall it <- items :: ComponentName(it).Some?
    ensures !GeneratePage(items, Some(dirs)).crashed
    ensures |GeneratePage(items, Some(dirs)).jobs| == 4 * |items|
    ensures forall i, k :: 0 <= i < |items| && 0 <= k < 4 ==>
      GeneratePage(items, Some(dirs)).jobs[4 * i + k] ==
        Job(PagesDir + ComponentName(items[i]).value + "/" + PageFiles[k].0, PageFiles[k].1,
            PageData(items[i].name, ComponentName(items[i]).value))
  {
    PlanShape(items);
  }

  /** Route items carry no `componentName`, so they are never reported as duplicates. */
  lemma RoutesNeverDuplicates(routes: seq<Route>, dirs: Option<seq<string>>)
    ensures GeneratePage(RouteItems(routes), dirs).duplicates == []
    ensures GeneratePage(RouteItems(routes), dirs).warning.None?
  {
    if dirs.Some? {
      IntersectionWithoutComponentNames(RouteItems(routes), dirs.value);
    }
  }

  /** Only items that carry a `componentName` can be reported. */
  lemma {:induction false} IntersectionWithoutComponentNames(items: seq<Item>, dirs: seq<string>)
    requires forall it <- items :: it.componentName.None?
    ensures Intersection(items, dirs) == []
  {
    if items != [] {
      assert items[0] in items;
      assert forall it <- items[1..] :: it in items;
      IntersectionWithoutComponentNames(items[1..], dirs);
    }
  }

  /** Every reported name is the `componentName` of some item. */
  lemma {:induction false} IntersectionSources(items: seq<Item>, dirs: seq<string>)
    ensures forall d <- Intersection(items, dirs) :: exists it <- items :: it.componentName == Some(d)
  {
    if items != [] {
      IntersectionSources(items[1..], dirs);
      assert forall it <- items[1..] :: it in items;
      assert items[0] in items;
    }
  }

  /**
   * Route items always have a component, so they never crash the plan, and only a missing
   * `src/pages` makes the call throw; the name used is the component's last segment.
   */
  lemma RouteItemsComponentName(routes: seq<Route>, dirs: Option<seq<string>>)
    ensures forall i :: 0 <= i < |routes| ==>
      ComponentName(RouteItems(routes)[i]) == Some(LastSegment(routes[i].component))
    ensures GeneratePage(RouteItems(routes), dirs).crashed <==> dirs.None?
  {
  }
}

=== FILE: generate_router.dfy ===
/**
 * `generateRouter`: decide which requested routes already appear in the manifest text,
 * warn about those, and render the others as `{ list }` into the manifest file.
 *
 * Duplicate detection is textual: the manifest text is JSON-quoted, every whitespace
 * character is deleted, and a route counts as present when the literal `key:'<key>',`
 * occurs in the result.
 */
module GenerateRouter {
  import opened Maybe
  import opened Text
  import opened Seqs
  import opened Records
  import opened Jobs

  // ---------------------------------------------------------------------------
  // JSON.stringify on a string

  function HexDigit(d: int): char
    requires 0 <= d < 16
  {
    "0123456789abcdef"[d]
  }

  /** Characters JSON.stringify writes as themselves. */
  predicate IsEscapeFree(c: char)
  {
    c as int >= 0x20 && c != '"' && c != '\\'
  }

  /** The escape JSON.stringify writes for one character of a string. */
  function EscapeChar(c: char): string
  {
    if IsEscapeFree(c) then [c]
    else if c == '"' then "\\\""
    else if c == '\\' then "\\\\"
    else if c as int == 0x08 then "\\b"
    else if c as int == 0x0C then "\\f"
    else if c == '\n' then "\\n"
    else if c == '\r' then "\\r"
    else if c == '\t' then "\\t"
    else UnicodeEscape(c as int)
  }

  /** `\u00xx` with lower-case hexadecimal digits, for the other control characters. */
  function UnicodeEscape(code: int): string
    requires 0 <= code < 0x20
  {
    "\\u00" + [HexDigit(code / 16), HexDigit(code % 16)]
  }

  function Escape(s: string): string
  {
    if s == [] then [] else EscapeChar(s[0]) + Escape(s[1..])
  }

  /** `JSON.stringify(s)` for a string `s`. */
  function JsonQuote(s: string): string
  {
    "\"" + Escape(s) + "\""
  }

  // ---------------------------------------------------------------------------
  // replace(/\s/g, '')

  /** The characters matched by `\s` in a JavaScript regular expression. */
  predicate IsJsSpace(c: char)
  {
    c in JsSpaces
  }

  /** Tab, vertical tab, form feed, space, no-break space, the byte order mark, the line
      terminators and the other space separators of Unicode (category Zs). */
  const JsSpaces: set<char> := {
    '\t', '\n', '\U{B}', '\U{C}', '\r', ' ', '\U{A0}', '\U{1680}',
    '\U{2000}', '\U{2001}', '\U{2002}', '\U{2003}', '\U{2004}', '\U{2005}',
    '\U{2006}', '\U{2007}', '\U{2008}', '\U{2009}', '\U{200A}',
    '\U{2028}', '\U{2029}', '\U{202F}', '\U{205F}', '\U{3000}', '\U{FEFF}'
  }

  function StripSpaces(s: string): (r: string)
  {
    if s == [] then []
    else (if IsJsSpace(s[0]) then [] else [s[0]]) + StripSpaces(s[1..])
  }

  /** The text the duplicate search runs on: `JSON.stringify(fileStr).replace(/\s/g, '')`. */
  function Normalize(text: string): string
  {
    StripSpaces(JsonQuote(text))
  }

  /** The literal whose presence marks a key as already routed. */
  function KeyPattern(key: string): string
  {
    "key:'" + key + "',"
  }

  predicate IsDuplicate(route: Route, normalized: string)
  {
    Contains(normalized, KeyPattern(route.key))
  }

  // ---------------------------------------------------------------------------
  // resolution

  datatype Resolved = Resolved(intersection: seq<string>, list: seq<Route>)

  /** The `forEach` of `resolution` over an already normalized text. */
  function Partition(routes: seq<Route>, normalized: string): (r: Resolved)
    ensures |r.intersection| + |r.list| == |routes|
    ensures IsSubsequence(r.list, routes)
    ensures forall x <- r.list :: !IsDuplicate(x, normalized)
  {
    if routes == [] then Resolved([], [])
    else
      var head := routes[0];
      var rest := Partition(routes[1..], normalized);
      assert [head] + routes[1..] == routes;
      if IsDuplicate(head, normalized) then
        SubsequenceSkip(head, rest.list, routes[1..]);
        Resolved([head.key] + rest.intersection, rest.list)
      else
        SubsequenceCons(head, rest.list, routes[1..]);
        Resolved(rest.intersection, [head] + rest.list)
  }

  /** `resolution(data)` with the manifest text passed in instead of read from disk. */
  function Resolution(routes: seq<Route>, manifest: string): Resolved
  {
    Partition(routes, Normalize(manifest))
  }

  /** What one `generateRouter(routes)` call does. */
  datatype RouterRun = RouterRun(
    duplicates: seq<string>,        // the `intersection`
    warning: Option<seq<string>>,   // the list printed by `warn`, when one is printed
    job: Job)                       // the single `compile` call

  /**
   * `manifest` is what `readFileSync` answers for `src/routes/routers.js`: `None` when the file
   * cannot be read, and then the call throws (`None`) before it warns or compiles anything.
   */
  function GenerateRouter(routes: seq<Route>, manifest: Option<string>): (run: Option<RouterRun>)
    ensures run.Some? <==> manifest.Some?
    ensures run.Some? ==> (run.value.warning.Some? <==> run.value.duplicates != [])
    ensures run.Some? && run.value.warning.Some? ==> run.value.warning.value == run.value.duplicates
    ensures run.Some? ==> run.value.job.target == RouterFile && run.value.job.template == "router.js.hbs"
    ensures run.Some? ==> run.value.job.data.RouterList?
    ensures run.Some? ==> |run.value.duplicates| + |run.value.job.data.list| == |routes|
    ensures run.Some? ==> IsSubsequence(run.value.job.data.list, routes)
    ensures run.Some? ==> forall x <- routes ::
      x in run.value.job.data.list <==> !IsDuplicate(x, Normalize(manifest.value))
    ensures run.Some? ==> forall x <- routes ::
      IsDuplicate(x, Normalize(manifest.value)) ==> x.key in run.value.duplicates
  {
    match manifest
    case None => None
    case Some(text) =>
      var resolved := Resolution(routes, text);
      PartitionMembers(routes, Normalize(text));
      var dups := resolved.intersection;
      Some(RouterRun(dups, if dups != [] then Some(dups) else None, RouterJob(resolved.list)))
  }

  // ---------------------------------------------------------------------------
  // The partition, route by route

  /** One route alone goes to `intersection` (by key) when it is a duplicate and to `list` otherwise. */
  lemma PartitionOne(x: Route, normalized: string)
    ensures Partition([x], normalized) ==
      if IsDuplicate(x, normalized) then Resolved([x.key], []) else Resolved([], [x])
  {
    assert [x][1..] == [];
  }

  /**
   * The partition of a concatenation is the concatenation of the partitions; with
   * `PartitionOne` this pins down both outputs, each in input order.
   */
  lemma PartitionConcat(a: seq<Route>, b: seq<Route>, normalized: string)
    ensures Partition(a + b, normalized) == Resolved(
      Partition(a, normalized).intersection + Partition(b, normalized).intersection,
      Partition(a, normalized).list + Partition(b, normalized).list)
  {
    IntersectionConcat(a, b, normalized);
    ListConcat(a, b, normalized);
  }

  lemma {:induction false} IntersectionConcat(a: seq<Route>, b: seq<Route>, normalized: string)
    ensures Partition(a + b, normalized).intersection ==
      Partition(a, normalized).intersection + Partition(b, normalized).intersection
  {
    if a == [] {
      assert a + b == b;
    } else {
      var ab := a + b;
      assert ab[0] == a[0] && ab[1..] == a[1..] + b;
      IntersectionConcat(a[1..], b, normalized);
      var pr, pb := Partition(a[1..], normalized).intersection, Partition(b, normalized).intersection;
      if IsDuplicate(a[0], normalized) {
        assert [a[0].key] + (pr + pb) == ([a[0].key] + pr) + pb;
      }
    }
  }

  lemma {:induction false} ListConcat(a: seq<Route>, b: seq<Route>, normalized: string)
    ensures Partition(a + b, normalized).list == Partition(a, normalized).list + Partition(b, normalized).list
  {
    if a == [] {
      assert a + b == b;
    } else {
      var ab := a + b;
      assert ab[0] == a[0] && ab[1..] == a[1..] + b;
      ListConcat(a[1..], b, normalized);
      var pr, pb := Partition(a[1..], normalized).list, Partition(b, normalized).list;
      if !IsDuplicate(a[0], normalized) {
        assert [a[0]] + (pr + pb) == ([a[0]] + pr) + pb;
      }
    }
  }

  /** Every requested route lands in `list` exactly when it is not a duplicate, and a duplicate's key in `intersection`. */
  lemma {:induction false} PartitionMembers(routes: seq<Route>, normalized: string)
    ensures forall x <- routes :: x in Partition(routes, normalized).list <==> !IsDuplicate(x, normalized)
    ensures forall x <- routes :: IsDuplicate(x, normalized) ==> x.key in Partition(routes, normalized).intersection
  {
    if routes != [] {
      PartitionMembers(routes[1..], normalized);
      assert forall x <- routes :: x == routes[0] || x in routes[1..];
    }
  }

  /** `intersection` lists the duplicates' keys in the order of the request. */
  lemma {:induction false} IntersectionInOrder(routes: seq<Route>, normalized: string)
    ensures IsSubsequence(Partition(routes, normalized).intersection, Keys(routes))
  {
    if routes != [] {
      var rest := Partition(routes[1..], normalized).intersection;
      IntersectionInOrder(routes[1..], normalized);
      assert Keys(routes) == [routes[0].key] + Keys(routes[1..]);
      if IsDuplicate(routes[0], normalized) {
        SubsequenceCons(routes[0].key, rest, Keys(routes[1..]));
      } else {
        SubsequenceSkip(routes[0].key, rest, Keys(routes[1..]));
      }
    }
  }

  /** When nothing is a duplicate, nothing is reported and every route is rendered. */
  lemma {:induction false} PartitionNoneDuplicate(routes: seq<Route>, normalized: string)
    requires forall x <- routes :: !IsDuplicate(x, normalized)
    ensures Partition(routes, normalized) == Resolved([], routes)
  {
    if routes != [] {
      assert routes[0] in routes;
      assert forall x <- routes[1..] :: x in routes;
      PartitionNoneDuplicate(routes[1..], normalized);
      assert [routes[0]] + routes[1..] == routes;
    }
  }

  // ---------------------------------------------------------------------------
  // What the normalization keeps and what it breaks

  lemma {:induction false} EscapeConcat(a: string, b: string)
    ensures Escape(a + b) == Escape(a) + Escape(b)
  {
    if a == [] {
      assert a + b == b;
    } else {
      var ab := a + b;
      assert ab[0] == a[0];
      assert ab[1..] == a[1..] + b;
      EscapeConcat(a[1..], b);
      calc {
        Escape(ab);
        EscapeChar(a[0]) + Escape(a[1..] + b);
        EscapeChar(a[0]) + (Escape(a[1..]) + Escape(b));
        (EscapeChar(a[0]) + Escape(a[1..])) + Escape(b);
      }
    }
  }

  lemma {:induction false} StripConcat(a: string, b: string)
    ensures StripSpaces(a + b) == StripSpaces(a) + StripSpaces(b)
  {
    if a == [] {
      assert a + b == b;
    } else {
      var ab := a + b;
      var head := if IsJsSpace(a[0]) then [] else [a[0]];
      assert ab[0] == a[0];
      assert ab[1..] == a[1..] + b;
      StripConcat(a[1..], b);
      calc {
        StripSpaces(ab);
        head + StripSpaces(a[1..] + b);
        head + (StripSpaces(a[1..]) + StripSpaces(b));
        (head + StripSpaces(a[1..])) + StripSpaces(b);
      }
    }
  }

  /** Characters JSON.stringify writes as themselves and `\s` does not match. */
  predicate IsPlain(c: char)
  {
    IsEscapeFree(c) && !IsJsSpace(c)
  }

  lemma {:induction false} EscapeFreeUnchanged(p: string)
    requires forall i :: 0 <= i < |p| ==> IsEscapeFree(p[i])
    ensures Escape(p) == p
  {
    if p != [] {
      EscapeFreeUnchanged(p[1..]);
      assert [p[0]] + p[1..] == p;
    }
  }

  lemma {:induction false} PlainUnchanged(p: string)
    requires forall i :: 0 <= i < |p| ==> !IsJsSpace(p[i])
    ensures StripSpaces(p) == p
  {
    if p != [] {
      PlainUnchanged(p[1..]);
      assert [p[0]] + p[1..] == p;
    }
  }

  /** The normalization works piece by piece, the quotes staying with the outer pieces. */
  lemma NormalizeSplit(u: string, m: string, v: string)
    ensures Normalize(u + m + v) ==
      StripSpaces("\"" + Escape(u)) + StripSpaces(Escape(m)) + StripSpaces(Escape(v) + "\"")
  {
    var x, y := "\"" + Escape(u), Escape(v) + "\"";
    calc {
      JsonQuote(u + m + v);
      "\"" + Escape(u + m + v) + "\"";
      { EscapeConcat(u + m, v); }
      "\"" + (Escape(u + m) + Escape(v)) + "\"";
      { EscapeConcat(u, m); }
      "\"" + ((Escape(u) + Escape(m)) + Escape(v)) + "\"";
      x + Escape(m) + y;
    }
    calc {
      StripSpaces(x + Escape(m) + y);
      { StripConcat(x + Escape(m), y); }
      StripSpaces(x + Escape(m)) + StripSpaces(y);
      { StripConcat(x, Escape(m)); }
      StripSpaces(x) + StripSpaces(Escape(m)) + StripSpaces(y);
    }
  }

  /** Plain text in the middle of a manifest survives the normalization intact. */
  lemma NormalizeAround(u: string, p: string, v: string)
    requires forall i :: 0 <= i < |p| ==> IsPlain(p[i])
    ensures Normalize(u + p + v) ==
      StripSpaces("\"" + Escape(u)) + p + StripSpaces(Escape(v) + "\"")
  {
    NormalizeSplit(u, p, v);
    EscapeFreeUnchanged(p);
    PlainUnchanged(p);
  }

  /**
   * A whitespace character JSON.stringify leaves as it is (a space, a no-break space, a line
   * separator, ...) is deleted: the manifest normalizes as if it were not there.
   */
  lemma UnescapedSpaceDeleted(u: string, c: char, v: string)
    requires IsJsSpace(c) && IsEscapeFree(c)
    ensures Normalize(u + [c] + v) == Normalize(u + v)
  {
    EscapeFreeOne(c);
    SpaceOne(c);
    NormalizeDrop(u, [c], v);
  }

  /** A piece that normalizes to nothing can be cut out of a manifest. */
  lemma NormalizeDrop(u: string, m: string, v: string)
    requires StripSpaces(Escape(m)) == []
    ensures Normalize(u + m + v) == Normalize(u + v)
  {
    NormalizeSplit(u, m, v);
    NormalizeJoin(u, v);
  }

  /** `NormalizeSplit` with nothing in the middle. */
  lemma NormalizeJoin(u: string, v: string)
    ensures Normalize(u + v) == StripSpaces("\"" + Escape(u)) + StripSpaces(Escape(v) + "\"")
  {
    var x, y := "\"" + Escape(u), Escape(v) + "\"";
    calc {
      JsonQuote(u + v);
      "\"" + Escape(u + v) + "\"";
      { EscapeConcat(u, v); }
      "\"" + (Escape(u) + Escape(v)) + "\"";
      x + y;
    }
    StripConcat(x, y);
  }

  /** A character JSON.stringify leaves alone escapes to itself. */
  lemma EscapeFreeOne(c: char)
    requires IsEscapeFree(c)
    ensures StripSpaces(Escape([c])) == StripSpaces([c])
  {
    assert Escape([c]) == EscapeChar(c) + Escape([]);
  }

  /** A whitespace character on its own strips to nothing. */
  lemma SpaceOne(c: char)
    requires IsJsSpace(c)
    ensures StripSpaces([c]) == []
  {
    assert StripSpaces([c]) == [] + StripSpaces([]);
  }


  /** Whitespace below U+0020: tab, line feed, vertical tab, form feed, carriage return. */
  predicate IsControlSpace(c: char)
  {
    c == '\t' || c == '\n' || c == '\r' || c as int == 0x0B || c as int == 0x0C
  }

  /** The escape of a control whitespace character is a backslash and a few non-space characters. */
  lemma ControlSpaceEscape(c: char)
    requires IsControlSpace(c)
    ensures |EscapeChar(c)| >= 2 && EscapeChar(c)[0] == '\\'
    ensures forall k :: 0 <= k < |EscapeChar(c)| ==> !IsJsSpace(EscapeChar(c)[k])
  {
    if c as int == 0x0B {
      assert EscapeChar(c) == UnicodeEscape(0x0B);
      assert UnicodeEscape(0x0B) == "\\u000b";
    }
  }

  /**
   * A tab, line feed, carriage return, form feed or vertical tab is escaped before the deletion
   * runs, so its escape (a backslash and at least one more character) stays in the normalized text.
   */
  lemma EscapedSpaceKept(u: string, c: char, v: string)
    requires IsControlSpace(c)
    ensures IsJsSpace(c)
    ensures Normalize(u + [c] + v) ==
      StripSpaces("\"" + Escape(u)) + EscapeChar(c) + StripSpaces(Escape(v) + "\"")
    ensures |EscapeChar(c)| >= 2 && EscapeChar(c)[0] == '\\'
  {
    var e := EscapeChar(c);
    NormalizeSplit(u, [c], v);
    assert Escape([c]) == e by {
      assert Escape([c]) == e + Escape([]);
      assert e + [] == e;
    }
    ControlSpaceEscape(c);
    PlainUnchanged(e);
  }

  lemma LetterIsPlain(c: char)
    requires IsLetter(c)
    ensures IsPlain(c)
  {
    assert c as int < 0x80;
  }

  /** Every character of the searched literal is written as itself by the normalization. */
  lemma KeyPatternPlain(key: string)
    requires IsLetters(key)
    ensures forall j :: 0 <= j < |KeyPattern(key)| ==> IsPlain(KeyPattern(key)[j])
  {
    var p := KeyPattern(key);
    var prefix, suffix := "key:'", "',";
    assert p == prefix + key + suffix;
    forall j | 0 <= j < |p| ensures IsPlain(p[j]) {
      if j < 5 {
        assert p[j] == prefix[j];
        assert IsPlain(prefix[j]) by {
          assert prefix[j] in "key:'";
        }
      } else if j < 5 + |key| {
        assert p[j] == key[j - 5];
        LetterIsPlain(key[j - 5]);
      } else {
        assert p[j] == suffix[j - 5 - |key|];
      }
    }
  }

  /**
   * A key written literally as `key:'<key>',` anywhere in the manifest is found, so that route
   * is reported as a duplicate and left out of the rendered list.
   */
  lemma LiteralKeyIsDuplicate(route: Route, manifest: string)
    requires IsLetters(route.key)
    requires Contains(manifest, KeyPattern(route.key))
    ensures IsDuplicate(route, Normalize(manifest))
  {
    var p := KeyPattern(route.key);
    var i :| 0 <= i <= |manifest| && OccursAt(manifest, p, i);
    var u, v := manifest[..i], manifest[i + |p|..];
    assert manifest == u + p + v;
    KeyPatternPlain(route.key);
    NormalizeAround(u, p, v);
    ContainsMiddle(StripSpaces("\"" + Escape(u)), p, StripSpaces(Escape(v) + "\""));
  }

  lemma EscapeCharQuote(c: char)
    ensures '\'' in EscapeChar(c) <==> c == '\''
  {
    if c as int < 0x20 && c != '\n' && c != '\r' && c != '\t' && c as int != 0x08 && c as int != 0x0C {
      var e := UnicodeEscape(c as int);
      assert forall k :: 0 <= k < |e| ==> e[k] != '\'';
    }
  }

  lemma {:induction false} QuoteInEscape(s: string)
    ensures '\'' in Escape(s) <==> '\'' in s
  {
    if s != [] {
      QuoteInEscape(s[1..]);
      EscapeCharQuote(s[0]);
      assert s == [s[0]] + s[1..];
      assert Escape(s) == EscapeChar(s[0]) + Escape(s[1..]);
    }
  }

  lemma {:induction false} QuoteInStrip(s: string)
    ensures '\'' in StripSpaces(s) <==> '\'' in s
  {
    if s != [] {
      QuoteInStrip(s[1..]);
      assert s == [s[0]] + s[1..];
    }
  }

  /** A single quote survives the normalization, and none is ever introduced by it. */
  lemma SingleQuoteKept(manifest: string)
    ensures '\'' in Normalize(manifest) <==> '\'' in manifest
  {
    QuoteInEscape(manifest);
    QuoteInStrip(JsonQuote(manifest));
    assert JsonQuote(manifest) == ['"'] + Escape(manifest) + ['"'];
  }

  /**
   * A manifest without single quotes (keys written `key:"home"` are escaped to `key:\"home\"`)
   * matches nothing: no duplicates, no warning, and every requested route is rendered.
   */
  lemma NoSingleQuoteNoDuplicates(routes: seq<Route>, manifest: string)
    requires '\'' !in manifest
    ensures GenerateRouter(routes, Some(manifest)).value.duplicates == []
    ensures GenerateRouter(routes, Some(manifest)).value.warning.None?
    ensures GenerateRouter(routes, Some(manifest)).value.job.data.list == routes
  {
    var normalized := Normalize(manifest);
    SingleQuoteKept(manifest);
    forall x <- routes ensures !IsDuplicate(x, normalized) {
      PatternNeedsQuote(normalized, x.key);
    }
    PartitionNoneDuplicate(routes, normalized);
  }

  /** Every key pattern carries a single quote, so a text without one contains none. */
  lemma PatternNeedsQuote(s: string, key: string)
    ensures Contains(s, KeyPattern(key)) ==> '\'' in s
  {
    if Contains(s, KeyPattern(key)) {
      var i :| 0 <= i <= |s| && OccursAt(s, KeyPattern(key), i);
      assert s[i + 4] == KeyPattern(key)[4];
    }
  }

  /**
   * A key written `key:<space>'<key>',` with a whitespace character that is not escaped is still
   * found: the deletion closes the gap.
   */
  lemma SpacedKeyIsDuplicate(route: Route, u: string, c: char, v: string)
    requires IsLetters(route.key)
    requires IsJsSpace(c) && IsEscapeFree(c)
    ensures IsDuplicate(route, Normalize(u + "key:" + [c] + "'" + route.key + "'," + v))
  {
    var rest := "'" + route.key + "'," + v;
    assert u + "key:" + [c] + "'" + route.key + "'," + v == (u + "key:") + [c] + rest;
    UnescapedSpaceDeleted(u + "key:", c, rest);
    assert (u + "key:") + rest == u + KeyPattern(route.key) + v;
    ContainsMiddle(u, KeyPattern(route.key), v);
    LiteralKeyIsDuplicate(route, u + KeyPattern(route.key) + v);
  }
}

=== FILE: jobs.dfy ===
/**
 * The work handed to the template compiler: a target file, a template and the data it is
 * rendered with. The compiler itself (template engine and file write) is outside the model.
 */
module Jobs {
  import opened Records

  datatype TemplateData =
    | RouterList(list: seq<Route>)                    // `{ list }` for router.js.hbs
    | PageData(name: string, componentName: string)   // `{ name, componentName }` for the page templates
    | PageName(name: string)                          // `{ name }` used by the project generator

  datatype Job = Job(target: string, template: string, data: TemplateData)

  /** Where the router manifest is written, relative to the project root. */
  const RouterFile: string := "src/routes/routers.js"

  /** The compile call that renders a route list into the manifest. */
  function RouterJob(list: seq<Route>): Job
  {
    Job(RouterFile, "router.js.hbs", RouterList(list))
  }
}

=== FILE: lib_create.dfy ===
/**
 * The project generator `lib/create.js`: the shared checks, an optional route list read with
 * `chop`, the template clone, then — only when routes were requested — page generation
 * followed by router generation inside the new project, and finally the install.
 */
module LibCreate {
  import opened Maybe
  import opened Text
  import Chop
  import opened Records
  import opened Jobs
  import opened ProjectDir
  import opened Scaffold
  import GeneratePage
  import GenerateRouter
  import CreateRouter

  /** The routes of the `--router` answer: one record per `chop` name. */
  function AnswerRoutes(answer: string): (routes: seq<Route>)
    ensures Keys(routes) == Chop.Chop(answer)
    ensures forall r <- routes :: WellFormedRoute(r)
  {
    RoutesForNames(Chop.Chop(answer));
    RoutesFor(Chop.Chop(answer))
  }

  /**
   * The generation in `run`: pages first, then the router manifest, both over the same
   * routes, giving the jobs compiled and whether either threw; the second never runs when
   * the first threw. Route records always name their page, so only a missing `src/pages`
   * (`dirs`) or `src/routes/routers.js` (`manifest`) makes them throw.
   */
  function Generate(routes: seq<Route>, dirs: Option<seq<string>>, manifest: Option<string>): (r: (seq<Job>, bool))
    ensures r.1 <==> dirs.None? || manifest.None?
    ensures dirs.None? ==> r.0 == []
    ensures dirs.Some? ==>
      |r.0| >= 4 * |routes| &&
      r.0[..4 * |routes|] == GeneratePage.GeneratePage(GeneratePage.RouteItems(routes), dirs).jobs
    ensures dirs.Some? && manifest.None? ==> |r.0| == 4 * |routes|
    ensures !r.1 ==>
      |r.0| == 4 * |routes| + 1 &&
      r.0[4 * |routes|] == GenerateRouter.GenerateRouter(routes, manifest).value.job
  {
    var pages := GeneratePage.GeneratePage(GeneratePage.RouteItems(routes), dirs);
    GeneratePage.RouteItemsComponentName(routes, dirs);
    match dirs
    case None => (pages.jobs, true)
    case Some(listing) =>
      GeneratePage.GeneratesEveryItem(GeneratePage.RouteItems(routes), listing);
      match GenerateRouter.GenerateRouter(routes, manifest)
      case None =>
        assert pages.jobs[..4 * |routes|] == pages.jobs;
        (pages.jobs, true)
      case Some(router) =>
        var jobs := pages.jobs + [router.job];
        assert jobs[..4 * |routes|] == pages.jobs;
        (jobs, false)
  }

  /**
   * `run` after the checks: clone, generate when routes were requested, install. A throw in
   * the generation rejects `run` before `shell.exec(command)`, so nothing is installed.
   */
  function Run(ready: Checked, cloneSucceeded: bool, routes: Option<seq<Route>>,
               dirs: Option<seq<string>>, manifest: Option<string>): (o: Outcome)
    requires ready.Ready?
    ensures o.removed == ready.removed
    ensures o.install.Some? <==> o.abort.None?
    ensures o.install.Some? <==> cloneSucceeded && (routes.None? || (dirs.Some? && manifest.Some?))
    ensures o.abort == Some(GenerationFailed) <==>
      cloneSucceeded && routes.Some? && (dirs.None? || manifest.None?)
    ensures o.install.Some? ==> o.install.value == ready.command
    ensures o.install.Some? && routes.None? ==> o.jobs == []
    ensures o.install.Some? && routes.Some? ==>
      |o.jobs| == 4 * |routes.value| + 1 &&
      o.jobs[|o.jobs| - 1].target == RouterFile &&
      forall j :: 0 <= j < |o.jobs| - 1 ==> StartsWith(o.jobs[j].target, GeneratePage.PagesDir)
  {
    match routes
    case None => Finish(ready, cloneSucceeded, [], false)
    case Some(rs) =>
      var generated := Generate(rs, dirs, manifest);
      GeneratePage.PlanUnderPages(GeneratePage.RouteItems(rs));
      Finish(ready, cloneSucceeded, generated.0, generated.1)
  }

  /**
   * One run of `create(name, { router })`. `routerAnswer` is the prompted list when `router`
   * is set; `dirs` and `manifest` are the page directory and manifest of the cloned template.
   */
  function Create(routerAnswer: Option<string>, dirs: Option<seq<string>>, manifest: Option<string>, p: Probe): (o: Outcome)
    ensures o.abort != Some(MissingName)
    ensures o.install.Some? <==> o.abort.None?
    ensures o.install.Some? <==>
      ChecksPass(p) && p.cloneSucceeded && (routerAnswer.None? || (dirs.Some? && manifest.Some?))
    ensures o.abort == Some(CloneFailed) <==> ChecksPass(p) && !p.cloneSucceeded
    ensures o.abort == Some(GenerationFailed) <==>
      ChecksPass(p) && p.cloneSucceeded && routerAnswer.Some? && (dirs.None? || manifest.None?)
    ensures o.install.Some? ==> (o.install.value == "yarn install" <==> p.yarnAvailable)
    ensures o.install.Some? ==> forall f <- p.listing :: !IsConflict(f) && (f in o.removed <==> IsErrorLog(f))
    ensures o.install.Some? && routerAnswer.None? ==> o.jobs == []
    ensures o.install.Some? && routerAnswer.Some? ==>
      |o.jobs| == 4 * |Chop.Chop(routerAnswer.value)| + 1 &&
      o.jobs[|o.jobs| - 1].target == RouterFile &&
      forall j :: 0 <= j < |o.jobs| - 1 ==> StartsWith(o.jobs[j].target, GeneratePage.PagesDir)
  {
    var checked := Preflight(p);
    if checked.Stop? then checked.outcome
    else
      var routes := if routerAnswer.Some? then Some(AnswerRoutes(routerAnswer.value)) else None;
      Run(checked, p.cloneSucceeded, routes, dirs, manifest)
  }

  /**
   * With routes, once the checks pass and the clone succeeds, `create` compiles exactly what
   * `createRouter` compiles for the same answer: the same page files, then the manifest with
   * the routes not already in it; nothing when `src/pages` cannot be read, and only the page
   * files when the manifest cannot be.
   */
  lemma SameAsCreateRouter(routerAnswer: string, dirs: Option<seq<string>>, manifest: Option<string>, p: Probe)
    requires ChecksPass(p) && p.cloneSucceeded
    ensures Create(Some(routerAnswer), dirs, manifest, p).jobs ==
      CreateRouter.Compiled(CreateRouter.CreateRouter(routerAnswer, None, dirs, manifest))
  {
    var routes := AnswerRoutes(routerAnswer);
    var generated := Generate(routes, dirs, manifest);
    var c := CreateRouter.CreateRouter(routerAnswer, None, dirs, manifest);
    assert c.routes == routes;
    if !generated.1 {
      assert generated.0 == generated.0[..4 * |routes|] + [generated.0[4 * |routes|]];
    }
  }
}

=== FILE: maybe.dfy ===
/** The optional value used for JavaScript's `undefined` and for answers that were never asked. */
module Maybe {

  datatype Option<+T> = None | Some(value: T)
}

=== FILE: project_dir.dfy ===
/**
 * `isSafeToCreateProjectIn`: a target directory is safe when every file already in it is
 * harmless (a whitelisted name, an IntelliJ `.iml` file or an old package-manager error log);
 * on the safe path the old error logs are removed.
 *
 * The directory listing is a parameter; both `readdirSync` calls are taken to see it.
 */
module ProjectDir {
  import opened Text
  import opened Seqs

  /** Files that may already sit in the target directory. */
  const ValidFiles: seq<string> := [
    ".DS_Store", ".git", ".gitattributes", ".gitignore", ".gitlab-ci.yml", ".hg",
    ".hgcheck", ".hgignore", ".idea", ".npmignore", ".travis.yml", "docs",
    "LICENSE", "README.md", "mkdocs.yml", "Thumbs.db"
  ]

  /** Prefixes of the error logs left behind by an earlier install. */
  const ErrorLogPatterns: seq<string> := ["npm-debug.log", "yarn-error.log", "yarn-debug.log"]

  /** `isErrorLog`: the name starts with one of the error-log prefixes. */
  predicate IsErrorLog(file: string)
  {
    exists p <- ErrorLogPatterns :: StartsWith(file, p)
  }

  /** A file that survives all three filters. */
  predicate IsConflict(file: string)
  {
    file !in ValidFiles && !EndsWith(file, ".iml") && !IsErrorLog(file)
  }

  /** The conflicting files, in listing order. */
  function Conflicts(listing: seq<string>): (conflicts: seq<string>)
    ensures IsSubsequence(conflicts, listing)
    ensures forall f <- conflicts :: IsConflict(f)
    ensures forall f <- listing :: IsConflict(f) ==> f in conflicts
  {
    if listing == [] then []
    else
      var rest := Conflicts(listing[1..]);
      assert [listing[0]] + listing[1..] == listing;
      assert forall f <- listing :: f == listing[0] || f in listing[1..];
      if IsConflict(listing[0]) then
        SubsequenceCons(listing[0], rest, listing[1..]);
        [listing[0]] + rest
      else
        SubsequenceSkip(listing[0], rest, listing[1..]);
        rest
  }

  /** The error logs, in listing order: what the second `forEach` removes. */
  function ErrorLogs(listing: seq<string>): (logs: seq<string>)
    ensures IsSubsequence(logs, listing)
    ensures forall f <- logs :: IsErrorLog(f)
    ensures forall f <- listing :: IsErrorLog(f) ==> f in logs
  {
    if listing == [] then []
    else
      var rest := ErrorLogs(listing[1..]);
      assert [listing[0]] + listing[1..] == listing;
      assert forall f <- listing :: f == listing[0] || f in listing[1..];
      if IsErrorLog(listing[0]) then
        SubsequenceCons(listing[0], rest, listing[1..]);
        [listing[0]] + rest
      else
        SubsequenceSkip(listing[0], rest, listing[1..]);
        rest
  }

  /** The verdict, the files reported as conflicts and the files removed. */
  datatype Safety = Safety(safe: bool, conflicts: seq<string>, removed: seq<string>)

  function IsSafeToCreateProjectIn(listing: seq<string>): (r: Safety)
    ensures r.safe <==> forall f <- listing :: !IsConflict(f)
    ensures r.safe ==> forall f <- listing :: f in ValidFiles || EndsWith(f, ".iml") || IsErrorLog(f)
    ensures forall f <- listing :: IsConflict(f) <==> f in r.conflicts
    ensures !r.safe ==> r.removed == []
    ensures r.safe ==> forall f <- listing :: f in r.removed <==> IsErrorLog(f)
    ensures IsSubsequence(r.removed, listing)
    ensures r.conflicts == Conflicts(listing)
    ensures r.safe ==> r.removed == ErrorLogs(listing)
  {
    var conflicts := Conflicts(listing);
    SubsequenceElements(conflicts, listing);
    if conflicts != [] then
      assert conflicts[0] in conflicts;
      Safety(false, conflicts, [])
    else
      var logs := ErrorLogs(listing);
      SubsequenceElements(logs, listing);
      Safety(true, [], logs)
  }

  // ---------------------------------------------------------------------------

  /** The filters work file by file: the conflicts of two listings are found separately. */
  lemma {:induction false} ConflictsConcat(a: seq<string>, b: seq<string>)
    ensures Conflicts(a + b) == Conflicts(a) + Conflicts(b)
  {
    if a == [] {
      assert a + b == b;
    } else {
      assert (a + b)[0] == a[0] && (a + b)[1..] == a[1..] + b;
      ConflictsConcat(a[1..], b);
      if IsConflict(a[0]) {
        assert [a[0]] + (Conflicts(a[1..]) + Conflicts(b)) == ([a[0]] + Conflicts(a[1..])) + Conflicts(b);
      }
    }
  }

  /** A directory is safe exactly when both halves of its listing are. */
  lemma SafetyConcat(a: seq<string>, b: seq<string>)
    ensures IsSafeToCreateProjectIn(a + b).safe <==>
      IsSafeToCreateProjectIn(a).safe && IsSafeToCreateProjectIn(b).safe
  {
    ConflictsConcat(a, b);
  }

  /** Files that are whitelisted or error logs never make a directory unsafe, wherever they are listed. */
  lemma HarmlessFilesIgnored(listing: seq<string>, extra: seq<string>)
    requires forall f <- extra :: f in ValidFiles || EndsWith(f, ".iml") || IsErrorLog(f)
    ensures IsSafeToCreateProjectIn(extra + listing).safe == IsSafeToCreateProjectIn(listing).safe
    ensures IsSafeToCreateProjectIn(extra + listing).conflicts == IsSafeToCreateProjectIn(listing).conflicts
  {
    ConflictsConcat(extra, listing);
    NoConflicts(extra);
  }

  /** A listing without conflicting files has none reported. */
  lemma {:induction false} NoConflicts(listing: seq<string>)
    requires forall f <- listing :: !IsConflict(f)
    ensures Conflicts(listing) == []
  {
    if listing != [] {
      assert listing[0] in listing;
      assert forall f <- listing[1..] :: f in listing;
      NoConflicts(listing[1..]);
    }
  }
}

=== FILE: records.dfy ===
/**
 * Route and page records built from normalized names, and the capitalisation used
 * for their component names.
 */
module Records {
  import opened Text
  import opened Seqs

  /** A route record `{key, name, to, path, component, exact, children}`. */
  datatype Route = Route(
    key: string,
    name: string,
    to: string,
    path: string,
    component: string,
    exact: bool,
    children: seq<Route>)

  /** A page record `{name, componentName}`. */
  datatype Page = Page(name: string, componentName: string)

  /**
   * `name.replace(/(.{1})(.*)/g, ($1, $2) => $1.toUpperCase() + $2)`:
   * the first character upper-cased, the rest unchanged.
   */
  function Capital(s: string): (r: string)
    ensures |r| == |s|
  {
    if s == [] then [] else [UpperChar(s[0])] + s[1..]
  }

  /** The route record for one normalized name. */
  function RouteFor(name: string): Route
  {
    Route(name, name, "/" + name, "/" + name, "pages/" + Capital(name), true, [])
  }

  /** The page record for one normalized name. */
  function PageFor(name: string): Page
  {
    Page(name, Capital(name))
  }

  /** One route record per name, in order. */
  function RoutesFor(names: seq<string>): (routes: seq<Route>)
    ensures |routes| == |names|
  {
    seq(|names|, i requires 0 <= i < |names| => RouteFor(names[i]))
  }

  /** The records of a prefix of the names are a prefix of the records. */
  lemma RoutesForPrefix(names: seq<string>, k: nat)
    requires k <= |names|
    ensures RoutesFor(names)[..k] == RoutesFor(names[..k])
  {
  }

  /** One page record per name, in order. */
  function PagesFor(names: seq<string>): (pages: seq<Page>)
    ensures |pages| == |names|
  {
    seq(|names|, i requires 0 <= i < |names| => PageFor(names[i]))
  }

  function Keys(routes: seq<Route>): (keys: seq<string>)
    ensures |keys| == |routes|
  {
    seq(|routes|, i requires 0 <= i < |routes| => routes[i].key)
  }

  /**
   * What a route made from a normalized name looks like: `key` and `name` are the name,
   * `to` and `path` are "/" + key, the component lives under "pages/" and its last segment
   * lower-cases back to the key, the route is exact and has no children.
   */
  predicate WellFormedRoute(r: Route)
  {
    && r.key != [] && IsLowerWord(r.key)
    && r.name == r.key
    && r.to == "/" + r.key && r.path == r.to
    && StartsWith(r.component, "pages/")
    && LowerStr(LastSegment(r.component)) == r.key
    && r.exact && r.children == []
  }

  /** The page record of a normalized name: its component name lower-cases back to the name. */
  predicate WellFormedPage(p: Page)
  {
    && p.name != [] && IsLowerWord(p.name)
    && |p.componentName| == |p.name|
    && IsUpper(p.componentName[0])
    && LowerStr(p.componentName) == p.name
  }

  // ---------------------------------------------------------------------------

  /** Capitalising a lower-case word upper-cases its first letter and nothing else; lower-casing undoes it. */
  lemma CapitalRoundTrip(s: string)
    requires IsLowerWord(s)
    ensures LowerStr(Capital(s)) == s
    ensures s != [] ==> IsUpper(Capital(s)[0])
    ensures forall i :: 1 <= i < |s| ==> Capital(s)[i] == s[i]
    ensures '/' !in Capital(s)
  {
    if s != [] {
      var c := Capital(s);
      assert c[0] == UpperChar(s[0]);
      forall i | 0 <= i < |s| ensures LowerChar(c[i]) == s[i] {
        if i > 0 {
          assert c[i] == s[i];
        }
      }
    }
  }

  /** Two lower-case words with the same capitalised form are the same word. */
  lemma CapitalInjective(a: string, b: string)
    requires IsLowerWord(a) && IsLowerWord(b)
    requires Capital(a) == Capital(b)
    ensures a == b
  {
    CapitalRoundTrip(a);
    CapitalRoundTrip(b);
  }

  /** The route of a non-empty lower-case name is well formed, with the name as its key. */
  lemma RouteForWellFormed(name: string)
    requires name != [] && IsLowerWord(name)
    ensures WellFormedRoute(RouteFor(name)) && RouteFor(name).key == name
  {
    CapitalRoundTrip(name);
    var r := RouteFor(name);
    assert r.component == "pages/" + Capital(name);
    LastSegmentAfterSlash("pages/", Capital(name));
  }

  /** The page of a non-empty lower-case name is well formed, with the name as its name. */
  lemma PageForWellFormed(name: string)
    requires name != [] && IsLowerWord(name)
    ensures WellFormedPage(PageFor(name)) && PageFor(name).name == name
  {
    CapitalRoundTrip(name);
  }

  /**
   * Routes built from distinct normalized names are well formed, their keys are the names
   * in order, and both keys and component paths are unique.
   */
  lemma RoutesForNames(names: seq<string>)
    requires forall n <- names :: n != [] && IsLowerWord(n)
    requires NoDuplicates(names)
    ensures forall r <- RoutesFor(names) :: WellFormedRoute(r)
    ensures Keys(RoutesFor(names)) == names
    ensures NoDuplicates(Keys(RoutesFor(names)))
    ensures forall i, j :: 0 <= i < j < |names| ==> RoutesFor(names)[i].component != RoutesFor(names)[j].component
  {
    var routes := RoutesFor(names);
    forall r <- routes ensures WellFormedRoute(r) {
      var i :| 0 <= i < |names| && routes[i] == r;
      assert names[i] in names;
      RouteForWellFormed(names[i]);
    }
    forall i, j | 0 <= i < j < |names| ensures routes[i].component != routes[j].component {
      assert names[i] in names && names[j] in names;
      if routes[i].component == routes[j].component {
        assert routes[i].component[6..] == Capital(names[i]);
        assert routes[j].component[6..] == Capital(names[j]);
        CapitalInjective(names[i], names[j]);
      }
    }
  }

  /**
   * Pages built from distinct normalized names are well formed, named in order, and their
   * component names are unique.
   */
  lemma PagesForNames(names: seq<string>)
    requires forall n <- names :: n != [] && IsLowerWord(n)
    requires NoDuplicates(names)
    ensures forall p <- PagesFor(names) :: WellFormedPage(p)
    ensures forall p <- PagesFor(names) :: p.componentName == Capital(p.name)
    ensures forall i :: 0 <= i < |names| ==> PagesFor(names)[i].name == names[i]
    ensures forall i, j :: 0 <= i < j < |names| ==> PagesFor(names)[i].componentName != PagesFor(names)[j].componentName
  {
    var pages := PagesFor(names);
    forall p <- pages ensures WellFormedPage(p) && p.componentName == Capital(p.name) {
      var i :| 0 <= i < |names| && pages[i] == p;
      assert names[i] in names;
      PageForWellFormed(names[i]);
    }
    forall i, j | 0 <= i < j < |names| ensures pages[i].componentName != pages[j].componentName {
      assert names[i] in names && names[j] in names;
      if pages[i].componentName == pages[j].componentName {
        CapitalInjective(names[i], names[j]);
      }
    }
  }
}

=== FILE: scaffold.dfy ===
/**
 * The steps the three project generators share: pick the package manager, refuse an old
 * npm, check the project name, check the target directory (removing old error logs when it
 * is safe), require git, clone the template, and finally run the install command.
 *
 * Every subprocess and library answer is an input field of `Probe`.
 */
module Scaffold {
  import opened Maybe
  import opened Jobs
  import opened ProjectDir

  /** What the environment answers. */
  datatype Probe = Probe(
    yarnAvailable: bool,         // `yarnpkg --version` succeeded
    npmVersion: Option<string>,  // the trimmed output of `npm --version`; None when it threw
    npmAtLeastFive: bool,        // `semver.gte(npmVersion, '5.0.0')`; false when it threw
    nameValid: bool,             // `validForNewPackages` for the directory's base name
    listing: seq<string>,        // the files already in the target directory
    gitAvailable: bool,          // `shell.which('git')`
    cloneSucceeded: bool)        // `git clone` exited with status 0

  /** Why a run ended with `process.exit(1)`. */
  datatype Abort =
    | MissingName                              // no project directory was given
    | OldNpm                                   // npm below version 5
    | InvalidName                              // npm naming restrictions
    | UnsafeDirectory(conflicts: seq<string>)  // files that could conflict
    | NoGit                                    // git is not installed
    | CloneFailed                              // `git clone` failed
    | GenerationFailed                         // page or router generation threw

  /** The effects of a run: error logs removed, template jobs compiled, install command run, exit reason. */
  datatype Outcome = Outcome(removed: seq<string>, jobs: seq<Job>, install: Option<string>, abort: Option<Abort>)

  /** A run that stopped before doing anything. */
  function Stopped(reason: Abort): Outcome
  {
    Outcome([], [], None, Some(reason))
  }

  /** `useYarn ? 'yarn install' : 'npm install'`. */
  function InstallCommand(yarnAvailable: bool): string
  {
    if yarnAvailable then "yarn install" else "npm install"
  }

  /** A JavaScript string value that is truthy: present and not empty. */
  predicate Truthy(s: Option<string>)
  {
    s.Some? && s.value != []
  }

  /**
   * The npm check runs only without yarn, and stops when npm reported a version that is not
   * at least 5 (including one semver cannot read); an npm that could not be run passes.
   */
  predicate OldNpmDetected(p: Probe)
  {
    !p.yarnAvailable && !p.npmAtLeastFive && Truthy(p.npmVersion)
  }

  /** Every check before the clone passes: npm is recent enough, the name is valid, the directory is safe, git exists. */
  predicate ChecksPass(p: Probe)
  {
    !OldNpmDetected(p) && p.nameValid && IsSafeToCreateProjectIn(p.listing).safe && p.gitAvailable
  }

  datatype Checked = Stop(outcome: Outcome) | Ready(command: string, removed: seq<string>)

  /** The checks before cloning, in source order. */
  function Preflight(p: Probe): (r: Checked)
    ensures r.Ready? <==>
      !OldNpmDetected(p) && p.nameValid && IsSafeToCreateProjectIn(p.listing).safe && p.gitAvailable
    ensures r.Ready? ==> (r.command == "yarn install" <==> p.yarnAvailable)
    ensures r.Ready? ==> r.command in {"yarn install", "npm install"}
    ensures r.Ready? ==> forall f <- p.listing :: f in r.removed <==> IsErrorLog(f)
    ensures r.Stop? ==> r.outcome.jobs == [] && r.outcome.install.None? && r.outcome.abort.Some?
    ensures r.Stop? ==> (r.outcome.abort == Some(OldNpm) <==> OldNpmDetected(p))
    ensures r.Stop? ==> (r.outcome.abort == Some(InvalidName) <==> !OldNpmDetected(p) && !p.nameValid)
    ensures r.Stop? && r.outcome.abort.value.UnsafeDirectory? ==>
      r.outcome.abort.value.conflicts != [] &&
      forall f <- p.listing :: f in r.outcome.abort.value.conflicts <==> IsConflict(f)
    ensures r.Stop? ==> (r.outcome.abort.value.UnsafeDirectory? <==>
      !OldNpmDetected(p) && p.nameValid && !IsSafeToCreateProjectIn(p.listing).safe)
    ensures r.Stop? ==> (r.outcome.abort == Some(NoGit) <==>
      !OldNpmDetected(p) && p.nameValid && IsSafeToCreateProjectIn(p.listing).safe && !p.gitAvailable)
    ensures r.Stop? && r.outcome.abort == Some(NoGit) ==> r.outcome.removed == ErrorLogs(p.listing)
    ensures r.Ready? ==> r.removed == ErrorLogs(p.listing)
    ensures r.Stop? && r.outcome.removed != [] ==> r.outcome.abort == Some(NoGit)
  {
    if OldNpmDetected(p) then Stop(Stopped(OldNpm))
    else if !p.nameValid then Stop(Stopped(InvalidName))
    else
      var safety := IsSafeToCreateProjectIn(p.listing);
      if !safety.safe then Stop(Stopped(UnsafeDirectory(safety.conflicts)))
      else if !p.gitAvailable then Stop(Outcome(safety.removed, [], None, Some(NoGit)))
      else Ready(InstallCommand(p.yarnAvailable), safety.removed)
  }

  /**
   * After the checks: clone, compile the jobs, install. `crashed` says the generation threw
   * after compiling `jobs`, which skips the install.
   */
  function Finish(ready: Checked, cloneSucceeded: bool, jobs: seq<Job>, crashed: bool): (o: Outcome)
    requires ready.Ready?
    ensures o.removed == ready.removed
    ensures o.install.Some? <==> o.abort.None?
    ensures o.install.Some? ==> o.install.value == ready.command && o.jobs == jobs
    ensures o.abort == Some(CloneFailed) <==> !cloneSucceeded
    ensures !cloneSucceeded ==> o.jobs == []
    ensures cloneSucceeded && !crashed ==> o == Outcome(ready.removed, jobs, Some(ready.command), None)
    ensures cloneSucceeded && crashed ==> o.abort == Some(GenerationFailed) && o.jobs == jobs && o.install.None?
  {
    if !cloneSucceeded then Outcome(ready.removed, [], None, Some(CloneFailed))
    else if crashed then Outcome(ready.removed, jobs, None, Some(GenerationFailed))
    else Outcome(ready.removed, jobs, Some(ready.command), None)
  }
}

=== FILE: seqs.dfy ===
/** Generic facts about sequences shared by the filters of the model. */
module Seqs {

  /** `a` can be obtained from `b` by deleting elements: the order of `a` is the order in `b`. */
  predicate IsSubsequence<T(==)>(a: seq<T>, b: seq<T>)
    decreases |b|
  {
    if a == [] then true
    else if b == [] then false
    else if a[0] == b[0] then IsSubsequence(a[1..], b[1..])
    else IsSubsequence(a, b[1..])
  }

  /** No element occurs twice. */
  predicate NoDuplicates<T(==)>(s: seq<T>)
  {
    forall i, j :: 0 <= i < j < |s| ==> s[i] != s[j]
  }

  /** Every element of a subsequence comes from the sequence it was taken from. */
  lemma {:induction false} SubsequenceElements<T>(a: seq<T>, b: seq<T>)
    requires IsSubsequence(a, b)
    ensures |a| <= |b|
    ensures forall x <- a :: x in b
    decreases |b|
  {
    if a == [] {
    } else if a[0] == b[0] {
      SubsequenceElements(a[1..], b[1..]);
      assert forall x <- a[1..] :: x in b;
      assert forall x <- a :: x == a[0] || x in a[1..];
    } else {
      SubsequenceElements(a, b[1..]);
    }
  }

  /** Prepending the same element keeps the relation. */
  lemma SubsequenceCons<T>(x: T, a: seq<T>, b: seq<T>)
    requires IsSubsequence(a, b)
    ensures IsSubsequence([x] + a, [x] + b)
  {
    assert ([x] + a)[1..] == a;
    assert ([x] + b)[1..] == b;
  }

  /** Prepending to the longer sequence only keeps the relation. */
  lemma {:induction false} SubsequenceSkip<T>(x: T, a: seq<T>, b: seq<T>)
    requires IsSubsequence(a, b)
    ensures IsSubsequence(a, [x] + b)
    decreases |b|, 1
  {
    assert ([x] + b)[1..] == b;
    if a == [] {
    } else if a[0] == x {
      // the greedy match takes x; what is left of a is still a subsequence of b
      SubsequenceTail(a, b);
    }
  }

  /** Dropping the head of a subsequence keeps it a subsequence. */
  lemma {:induction false} SubsequenceTail<T>(a: seq<T>, b: seq<T>)
    requires IsSubsequence(a, b)
    requires a != []
    ensures IsSubsequence(a[1..], b)
    decreases |b|, 0
  {
    if a[0] == b[0] {
      SubsequenceSkip(b[0], a[1..], b[1..]);
      assert [b[0]] + b[1..] == b;
    } else {
      SubsequenceTail(a, b[1..]);
      SubsequenceSkip(b[0], a[1..], b[1..]);
      assert [b[0]] + b[1..] == b;
    }
  }
}

=== FILE: text.dfy ===
/** ASCII character classes and the string helpers the scaffolding code relies on. */
module Text {

  predicate IsUpper(c: char) { 'A' <= c <= 'Z' }

  predicate IsLower(c: char) { 'a' <= c <= 'z' }

  /** The class `[A-Za-z]`. */
  predicate IsLetter(c: char) { IsUpper(c) || IsLower(c) }

  /** Only characters of `[A-Za-z]`. */
  predicate IsLetters(s: string)
  {
    forall i :: 0 <= i < |s| ==> IsLetter(s[i])
  }

  /** Only characters of `[a-z]`. */
  predicate IsLowerWord(s: string)
  {
    forall i :: 0 <= i < |s| ==> IsLower(s[i])
  }

  /** `toLowerCase` on ASCII; the strings it is applied to here hold letters only. */
  function LowerChar(c: char): char
  {
    if IsUpper(c) then (c as int + 32) as char else c
  }

  /** `toUpperCase` on ASCII. */
  function UpperChar(c: char): char
  {
    if IsLower(c) then (c as int - 32) as char else c
  }

  function LowerStr(s: string): (r: string)
    ensures |r| == |s|
  {
    seq(|s|, i requires 0 <= i < |s| => LowerChar(s[i]))
  }

  /** Lower-casing a word of letters gives a word of lower-case letters of the same length. */
  lemma LowerOfLetters(s: string)
    requires IsLetters(s)
    ensures IsLowerWord(LowerStr(s))
  {
  }

  /** Lower-casing leaves a lower-case word unchanged. */
  lemma LowerOfLowerWord(s: string)
    requires IsLowerWord(s)
    ensures LowerStr(s) == s
  {
  }

  /** A lower-case word is a word of letters. */
  lemma LowerWordIsLetters(s: string)
    requires IsLowerWord(s)
    ensures IsLetters(s)
  {
  }

  /** `s.startsWith(p)`. */
  predicate StartsWith(s: string, p: string)
  {
    |p| <= |s| && s[..|p|] == p
  }

  /** `s.endsWith(p)`, also the regular expression `p$` without the multiline flag. */
  predicate EndsWith(s: string, p: string)
  {
    |p| <= |s| && s[|s| - |p|..] == p
  }

  /** `p` occurs in `s` starting at index `i`. */
  predicate OccursAt(s: string, p: string, i: int)
  {
    0 <= i && i + |p| <= |s| && s[i..i + |p|] == p
  }

  /** `s.includes(p)`. */
  predicate Contains(s: string, p: string)
  {
    exists i | 0 <= i <= |s| :: OccursAt(s, p, i)
  }

  /** An occurrence inside the middle part of a concatenation is an occurrence in the whole. */
  lemma ContainsMiddle(u: string, p: string, v: string)
    ensures Contains(u + p + v, p)
  {
    assert (u + p + v)[|u|..|u| + |p|] == p;
    assert OccursAt(u + p + v, p, |u|);
  }

  /** `xs.join(sep)`. */
  function Join(xs: seq<string>, sep: string): string
  {
    if xs == [] then []
    else if |xs| == 1 then xs[0]
    else xs[0] + sep + Join(xs[1..], sep)
  }

  /** `s.split('/').pop()`: the text after the last '/', or all of `s` when it has none. */
  function LastSegment(s: string): (r: string)
    ensures '/' !in r
  {
    if s == [] then []
    else if '/' in s[1..] then LastSegment(s[1..])
    else if s[0] == '/' then s[1..]
    else s
  }

  /** The last segment is the part of `s` after its last '/', or all of `s` when it has none. */
  lemma {:induction false} LastSegmentSuffix(s: string)
    ensures |LastSegment(s)| <= |s| && s[|s| - |LastSegment(s)|..] == LastSegment(s)
    ensures |LastSegment(s)| < |s| ==> s[|s| - |LastSegment(s)| - 1] == '/'
  {
    if s != [] && '/' in s[1..] {
      LastSegmentSuffix(s[1..]);
      var r := LastSegment(s[1..]);
      assert s[1..][|s| - 1 - |r|..] == s[|s| - |r|..];
      assert s[1..][|s| - 1 - |r| - 1] == s[|s| - |r| - 1];
    }
  }

  /** A path without '/' after a prefix ending in '/' has that path as its last segment. */
  lemma {:induction false} LastSegmentAfterSlash(prefix: string, name: string)
    requires |prefix| > 0 && prefix[|prefix| - 1] == '/'
    requires '/' !in name
    ensures LastSegment(prefix + name) == name
  {
    var s := prefix + name;
    if |prefix| == 1 {
      assert s[1..] == name;
    } else {
      assert s[1..] == prefix[1..] + name;
      assert s[1..][|prefix| - 2] == '/';
      LastSegmentAfterSlash(prefix[1..], name);
    }
  }
}
